=== FILE: README.md ===
# ICMP covert-channel detector, packet parser and MQTT bridge — a Dafny model

This project models three pieces of the repository in Dafny and proves properties about them.

- **The detector** (`detect-script/main.cpp`). It makes one pass over the frames of a capture file. It keeps only ICMP Echo Requests (type 8, the Echo or Echo Reply Message of RFC 792). A frame passes only if its source address is in neither of two address sets, the sources seen and the destinations seen. It then looks for the bytes `"LOVE"` in the payload of the frame's first (outermost) layer. On a hit it records the source and the destination and prints a finding. At the end it prints both sets in ascending order.
  - Each decoded frame is a `Frames.Frame`. It has an optional IPv4 header, an optional ICMP header and the first layer's payload. The decoder's rule that ICMP implies IPv4 is built into the subset type.
  - One loop iteration is the pure function `Detector.Step`. `Detector.Scan` folds it over the capture.
  - `Report.Detect` is the executable loop and is proved equal to `Scan`. `Report.Run` adds the open check, the printed listing and the exit status.
- **`little_endian_conv` and the per-packet classifier of `packet_parser.py`.**
  - `LittleEndian.LittleEndianConv` reads hexadecimal text as bytes and reverses them. It prints their value as 8 big-endian bytes in lower-case hexadecimal.
  - `PacketParser.Classify` picks one of three branches by looking for hex substrings. In the HiPerConTracer branch it slices fixed digit ranges into header fields. The script-level variable `send_time` is passed from one packet to the next.
- **`_parse_mqtt_message` and the forwarding decision of `on_message` in `mqtt_to_influx.py`.** UTF-8 decoding and `float()` are function parameters of the model.

Fixed-width integers are bounded-integer newtypes (`Bytes.byte`, `uint16`, `uint32`). An IPv4 address is its 32-bit numeric value, so ascending order is the order of `std::set<IPv4Address>`. Python exceptions become `Err` values of `PyErrors.PyError`.

Two details of the detector's code shape the model:

- `main.cpp:86` sets `std::hex` for the IP ID and never resets it. The TTL is therefore always printed in hexadecimal, and so is the ICMP type from the second finding on (`Report.RenderBlocks`). For type 8 the text is the same in both bases.
- `main.cpp:67` tests only `isPacketOfType(ICMP)` and then reads the IPv4 layer. The model relies on the decoder recognising ICMP only on top of IPv4; the `Frames.Frame` subset type states this.

## Model

| member | source | states |
|---|---|---|
| Frames.NetToHost16 | detect-script/main.cpp:86 | the reported IP ID is the header word with its two bytes swapped (little-endian host) |
| Detector.FindingOf | detect-script/main.cpp:83-89 | a finding carries the ICMP type and checksum, src and dst, the byte-swapped IP ID, the TTL and the payload bytes of the frame |
| Detector.Step | detect-script/main.cpp:67-81 | a frame that is not a marked Echo Request from an unseen source leaves sets and findings unchanged; a reported frame adds src to the source set, dst to the destination set and appends its finding, nothing else |
| Detector.NonRequestIgnored | detect-script/main.cpp:67-71 | non-ICMP frames and ICMP types other than 8 never change the state |
| Detector.Scan | detect-script/main.cpp:60-94 | the capture loop takes the frames in capture order and adds at most one finding per frame |
| Detector.StepPreservesConsistent | detect-script/main.cpp:71-81 | each step keeps the sets equal to the findings' sources and destinations, with no source reported twice |
| Detector.ScanConsistent | detect-script/main.cpp:57-94 | after any capture the sets are exactly the reported sources and destinations, and sources are pairwise distinct |
| Detector.FindingsMatchSources | detect-script/main.cpp:71-81 | the number of findings equals the number of recorded sources and bounds the number of recorded destinations |
| Detector.ScanMonotone | detect-script/main.cpp:60-94 | the two sets only grow and findings are only appended as the capture advances |
| Detector.SeenSourceNeverReported | detect-script/main.cpp:71 | once an address is in either set, no later frame from that source changes the state |
| Detector.ReportedIndicesAscending | detect-script/main.cpp:60-90 | the reporting frames are one per finding, at strictly increasing capture positions |
| Detector.FindingsInCaptureOrder | detect-script/main.cpp:60-90 | the k-th finding is the finding of the k-th reporting frame |
| Detector.ReportedIndicesExact | detect-script/main.cpp:67-81 | a frame is among the reporting frames exactly when it is a marked Echo Request from a source unseen at its turn |
| SeqSearch.FindFrom | detect-script/main.cpp:79 | the search returns the first occurrence at or after the start position, or none when the block occurs nowhere after it |
| SeqSearch.ContainsExec | packet_parser.py:50-62 | Python's `needle in text`, as tested by the two `case` guards, holds exactly when the needle occurs as a contiguous block |
| SeqSearch.Find | detect-script/main.cpp:79 | `find("LOVE") != npos` holds exactly when the marker occurs as a contiguous block of the payload |
| Report.FullPayload | detect-script/main.cpp:32-41 | the copied vector is exactly the layer's payload bytes, in order |
| Report.Detect | detect-script/main.cpp:60-94 | the executable capture loop computes the same state as the fold of `Step` over the frames |
| Report.RenderBlocks | detect-script/main.cpp:82-90 | one block per finding in order; the type is decimal only in the first block, while ID, checksum and TTL are always hexadecimal |
| Report.ExitStatus | detect-script/main.cpp:48-51 | the status is 1 exactly when the reader failed to open, 0 otherwise |
| Report.Run | detect-script/main.cpp:44-110 | an open failure writes "Error opening the pcap file" to standard error, prints nothing to standard output and returns 1; otherwise the blocks of all findings and both sets in strictly ascending order, each address once, are printed, and the status is 0 |
| AddressOrder.Insert | detect-script/main.cpp:80-81 | inserting into an ascending listing keeps it ascending and adds exactly the new address; an address already present is not repeated |
| AddressOrder.Ascending | detect-script/main.cpp:95-106 | the listing of a set is strictly ascending and mentions exactly the set's addresses |
| AddressOrder.AscendingUnique | detect-script/main.cpp:95-106 | two ascending listings of the same addresses are equal, so the printed order does not depend on insertion order |
| AddressOrder.AscendingLength | detect-script/main.cpp:96-104 | an ascending listing prints each address exactly once |
| Scenarios.ScenarioSingleRequest | detect-script/main.cpp:67-90 | one marked Echo Request from 10.0.0.1 to 10.0.0.2 gives one finding and records both addresses |
| Scenarios.ScenarioReplyIgnored | detect-script/main.cpp:71 | a marked Echo Reply gives no finding |
| Scenarios.ScenarioRepeatedSource | detect-script/main.cpp:71-81 | of two marked requests from one source, only the first is reported and only its destination is recorded |
| Scenarios.ScenarioMissThenHit | detect-script/main.cpp:77-81 | an unmarked request records nothing, so the same source's next marked request is reported |
| Hex.HexDigits | packet_parser.py:10-11 | `{n:02X}` and `.hex()` print two hexadecimal digits per byte; upper case prints no `a`-`f` letter and lower case no `A`-`F` letter |
| Hex.HexDigitsAppend | packet_parser.py:48 | printing two byte strings one after the other prints their concatenation |
| Hex.HexDigitsSlice | packet_parser.py:51 | digits `2i..2j` of a printed byte string are the printing of bytes `i..j` |
| Hex.Reverse | packet_parser.py:9 | `big.reverse()`: the k-th byte of the result is the k-th from the end of the input |
| Hex.ReverseReverse | packet_parser.py:9 | reversing twice gives the byte string back |
| Hex.FromHex | packet_parser.py:8 | `bytearray.fromhex` yields at most one byte per two characters; on pure digit text it succeeds exactly for an even number of digits, one byte per pair |
| Hex.ToBytesBigEndian | packet_parser.py:11 | `to_bytes(n, 'big')` of a value below 256^n gives n bytes whose big-endian value is that value |
| Hex.HexValueOfDigits | packet_parser.py:10-11 | reading the two-digit-per-byte text back with base 16 gives the bytes' big-endian value |
| Hex.FromHexOfDigits | packet_parser.py:8 | `fromhex` gives back the bytes that `hex` printed |
| Hex.DigitsOfFromHex | packet_parser.py:8 | an even run of hex digits parses to half as many bytes, and printing them back gives the digits in lower case |
| LittleEndian.LittleEndianConv | packet_parser.py:6-12 | succeeds exactly when `fromhex` accepts the text, some byte is left and the little-endian value is below 2^64; the result is 16 lower-case digits whose value is the input read little-endian |
| LittleEndian.ConvReversesAndPads | packet_parser.py:6-12 | for 1 to 8 input bytes the result is the bytes in reverse order, left-padded with zero bytes to 8 bytes |
| LittleEndian.ConvRejectsMalformed | packet_parser.py:7-11 | empty input and an odd number of digits raise `ValueError` |
| LittleEndian.ConvOverflows | packet_parser.py:11 | more than 8 bytes with a nonzero last input byte raise `OverflowError` |
| LittleEndian.ConvTwice | packet_parser.py:6-12 | on 16 digits, converting twice gives the input in lower case |
| PacketParser.PySlice | packet_parser.py:51-58 | Python slicing clamps out-of-range bounds; the slice holds the characters from the lower bound on |
| PacketParser.HexLiteral | packet_parser.py:54-59 | `int(f"0x{d}", 0)` is the digits' value, below 16^len; no digits raise `ValueError` |
| PacketParser.RawHex | packet_parser.py:48 | `bytes(packet).hex()` is two lower-case digits per packet byte, and `fromhex` of it gives back the packet's bytes |
| PacketParser.HeaderDigits | packet_parser.py:48-51 | the header slice is the lower-case printing of packet bytes 28..43, or of as many of them as the packet has: an even run of at most 32 digits, longer than 16 exactly when the packet has more than 36 bytes |
| PacketParser.HeaderNumbers | packet_parser.py:54-57 | the four fixed-width numbers are read in order and all succeed exactly when there are more than 12 header digits, each `ValueError` otherwise; with 16 digits or more they are the values of slices 0..7, 8..10, 10..12 and 12..16, below 2^28, 256, 256 and 65536 |
| PacketParser.StampConv | packet_parser.py:58-59 | the send-time digits of a header convert exactly when at least one byte remains, otherwise `ValueError`, and the result's value is those bytes read little-endian |
| PacketParser.ParseHiPerHeader | packet_parser.py:51-59 | magic from digits 0..6 (below 2^28), TTL from 8..9 and round from 10..11 (below 256), checksum tweak from 12..15 (below 65536), send time from digits 16 on read little-endian; at most 16 digits raise `ValueError` |
| PacketParser.Classify | packet_parser.py:42-77 | a packet without IP adds no row and leaves `send_time`; an IP packet adds one row with its addresses, arrival time and raw hex, and `send_time` becomes the row's send time |
| PacketParser.BranchOf | packet_parser.py:49-69 | the HiPerConTracer branch is taken exactly when the text contains "4c4f5645", Linux ping exactly when it contains "20212223" but not "4c4f5645", the last branch when it contains neither |
| PacketParser.BranchPriority | packet_parser.py:49-62 | a packet containing "4c4f5645" takes the HiPerConTracer branch even when "20212223" is also present |
| PacketParser.HiPerConTracerFields | packet_parser.py:50-60 | the HiPerConTracer branch succeeds exactly for packets over 36 bytes and its row carries the parsed header fields and send time |
| PacketParser.OtherBranchesFields | packet_parser.py:62-75 | outside HiPerConTracer magic, round and tweak are None and the TTL column is the arrival time; the Linux ping branch keeps the previous `send_time` (NameError if never set), the other branch resets it to None |
| PacketParser.ParseCapture | packet_parser.py:42-77 | the loop fails only with `ValueError`, or with `NameError` when `send_time` was unassigned before the capture; afterwards `send_time` is unassigned exactly when it was before and no packet had an IP layer |
| PacketParser.ClassifySucceeds | packet_parser.py:49-75 | one IP packet fails only with a HiPerConTracer header of 36 bytes or fewer (`ValueError`) or as a Linux ping while `send_time` is unassigned (`NameError`) |
| PacketParser.ParseCaptureSucceeds | packet_parser.py:42-77 | the loop succeeds exactly when every packet is classifiable (no IP layer, not HiPerConTracer, or more than 36 bytes) and, with `send_time` unassigned on entry, the first IP packet is not a Linux ping |
| PacketParser.ParseCaptureFailure | packet_parser.py:42-77 | a failed loop raised `NameError` exactly when `send_time` was unassigned on entry and the first IP packet is a Linux ping; any other failure is the `ValueError` that `ParseCapture`'s contract allows |
| PacketParser.ParseCaptureFirst | packet_parser.py:42-77 | a successful loop is the first packet's row (one for an IP packet, none otherwise) followed by the rows of the rest, with `send_time` as the first packet left it |
| PacketParser.RowsFollowIpPackets | packet_parser.py:42-77 | the rows are one per IP packet, in input order, with that packet's addresses, time and raw hex |
| MqttBridge.NonSlashRun | mqtt_to_influx.py:30 | a greedy `[^/]+` takes the longest slash-free prefix, stopping at the end or at a '/' |
| MqttBridge.MatchTopic | mqtt_to_influx.py:57-60 | `re.match` yields (location, measurement) exactly when the topic starts with `bandwidth/<location>/<measurement>`, both non-empty and slash-free, with the measurement ending at the end or a '/'; those groups are the only ones that fit |
| MqttBridge.GroupsAreRuns | mqtt_to_influx.py:30 | in every fitting topic, the location is the greedy slash-free run after the prefix and the measurement the run after the next '/' |
| MqttBridge.RunsMatch | mqtt_to_influx.py:30 | the two greedy runs, when non-empty and separated by '/', satisfy `Matches` |
| MqttBridge.TrailingSegmentsIgnored | mqtt_to_influx.py:57 | `bandwidth/a/b/c` matches with groups a and b |
| MqttBridge.ParseMqttMessage | mqtt_to_influx.py:56-65 | a non-matching topic or the `status` measurement gives None whatever the payload; otherwise an unparsable payload is a `ValueError`, and a convertible one gives exactly the topic's location and measurement with the converted value |
| MqttBridge.OnMessage | mqtt_to_influx.py:48-53 | a non-UTF-8 payload raises `UnicodeDecodeError`; otherwise the parse's error propagates unchanged, and a point is forwarded exactly when parsing gives data, with its measurement, location and value |

## Left out

- The PcapPlusPlus reader and packet decoder and the `IPv4Address` comparator are external libraries. A capture is a sequence of decoded frames, an open failure is a boolean, and addresses are ordered by their 32-bit value.
- `getProtocolTypeAsString` is never called.
- The exact text layout of `std::cout` and dotted-quad rendering are left out. The model keeps each printed field's value, base and order, and the text of the one line written to `std::cerr`.
- Frames.NetToHost16: assumes a little-endian host, where `netToHost16` swaps the bytes.
- Report.FullPayload: the `int` loop counter of `getFullPayloadAsVector` would overflow on payloads of 2^31 bytes or more; payloads are taken to be shorter.
- The database client headers under `modified-hipercontracer/src` only declare wrappers over the MongoDB and PostgreSQL drivers. They are not part of this model.
- In `packet_parser.py`, `rdpcap`, the progress `print`s, the loop over capture file names and the pandas/Excel export are file and screen I/O. `ParseCapture` models one capture's loop and takes `send_time` as a parameter, because the variable carries over between captures.
- PacketParser.Classify: the send time is kept as the millisecond count. Its rendering by `time.strftime(time.localtime(tmp/1000))` involves floating point and the local time zone, and is not modelled, including `localtime` failing on out-of-range values.
- PacketParser.HexLiteral: Python's `int()` also accepts whitespace and underscores. That cannot arise here, because the digits always come from `bytes.hex()` or from `little_endian_conv`.
- MqttBridge.ParseMqttMessage: `float()` is the parameter `toFloat`, a partial function returning an `Option`. Which strings Python accepts, and the value it produces, are not modelled.
- MqttBridge.OnMessage: `bytes.decode('utf-8')` is the parameter `decodeUtf8`. The `print` of the topic and the payload's `repr` at the start of `on_message` is screen output and is not modelled.
- The MQTT client, the InfluxDB client, `_send_sensor_data_to_influxdb`, `_init_influxdb_database`, `main` and `on_connect` are network I/O. The model stops at the point handed to the sink.

=== FILE: address_order.dfy ===
/**
  Listing an address set in ascending numeric order, as iterating a
  `std::set<IPv4Address>` does (its comparator orders addresses by their
  32-bit numeric value).
 */
module AddressOrder {
  import opened Frames

  /** Strictly ascending: sorted, and so every address appears once. */
  predicate StrictlyAscending(r: seq<Addr>) {
    forall i, j :: 0 <= i < j < |r| ==> r[i] < r[j]
  }

  /** The addresses a listing mentions. */
  function Elems(r: seq<Addr>): set<Addr> {
    if |r| == 0 then {} else {r[0]} + Elems(r[1..])
  }

  lemma {:induction false} ElemsMembership(r: seq<Addr>, a: Addr)
    ensures a in Elems(r) <==> a in r
    decreases |r|
  {
    if |r| > 0 {
      ElemsMembership(r[1..], a);
      assert r == [r[0]] + r[1..];
    }
  }

  /** Inserts `a` into an ascending listing at its place; a present address is not repeated. */
  function Insert(r: seq<Addr>, a: Addr): (r': seq<Addr>)
    requires StrictlyAscending(r)
    ensures StrictlyAscending(r')
    ensures Elems(r') == Elems(r) + {a}
    ensures |r'| > 0 && r'[0] == (if |r| > 0 && r[0] < a then r[0] else a)
    decreases |r|
  {
    if |r| == 0 then [a]
    else if a < r[0] then [a] + r
    else if a == r[0] then r
    else
      var tail := Insert(r[1..], a);
      assert ([r[0]] + tail)[1..] == tail;
      [r[0]] + tail
  }

  /** Lists `s` in ascending order. */
  method Ascending(s: set<Addr>) returns (r: seq<Addr>)
    ensures StrictlyAscending(r)
    ensures Elems(r) == s
  {
    r := [];
    var rest := s;
    while |rest| > 0
      invariant StrictlyAscending(r)
      invariant Elems(r) + rest == s
      decreases rest
    {
      var a :| a in rest;
      r := Insert(r, a);
      rest := rest - {a};
    }
  }

  /**
    An ascending listing is determined by its addresses alone, so the
    printed order does not depend on the order of insertion.
   */
  lemma {:induction false} AscendingUnique(r1: seq<Addr>, r2: seq<Addr>)
    requires StrictlyAscending(r1) && StrictlyAscending(r2)
    requires Elems(r1) == Elems(r2)
    ensures r1 == r2
    decreases |r1|
  {
    AscendingLength(r1);
    AscendingLength(r2);
    if |r1| > 0 {
      HeadIsLeast(r2, r1[0]);
      HeadIsLeast(r1, r2[0]);
      HeadNotInTail(r1);
      HeadNotInTail(r2);
      var t1, t2 := r1[1..], r2[1..];
      assert Elems(t1) == Elems(r1) - {r1[0]};
      assert Elems(t2) == Elems(r2) - {r2[0]};
      AscendingUnique(t1, t2);
      assert r1 == [r1[0]] + t1;
      assert r2 == [r2[0]] + t2;
    }
  }

  /** The head of an ascending listing is its least address. */
  lemma HeadIsLeast(r: seq<Addr>, a: Addr)
    requires StrictlyAscending(r) && a in Elems(r)
    ensures r[0] <= a
  {
    ElemsMembership(r, a);
    var k :| 0 <= k < |r| && r[k] == a;
    if k > 0 {
      assert r[0] < r[k];
    }
  }

  lemma HeadNotInTail(r: seq<Addr>)
    requires StrictlyAscending(r) && |r| > 0
    ensures r[0] !in Elems(r[1..])
  {
    ElemsMembership(r[1..], r[0]);
  }

  /** An ascending listing mentions each address exactly once. */
  lemma {:induction false} AscendingLength(r: seq<Addr>)
    requires StrictlyAscending(r)
    ensures |Elems(r)| == |r|
    decreases |r|
  {
    if |r| > 0 {
      HeadNotInTail(r);
      AscendingLength(r[1..]);
    }
  }
}

=== FILE: bytes.dfy ===
/** Fixed-width unsigned integers of the modelled programs, as bounded integers. */
module Bytes {
  newtype byte = x: int | 0 <= x < 0x100
  newtype uint16 = x: int | 0 <= x < 0x1_0000
  newtype uint32 = x: int | 0 <= x < 0x1_0000_0000
}

=== FILE: detector.dfy ===
/**
  The detection engine of `detect-script/main.cpp`: one sequential pass over
  decoded frames that keeps ICMP Echo Requests, gates on the source address
  not yet being recorded, looks for the marker in the first layer's payload,
  and records the addresses and a finding.
 */
module Detector {
  import opened Bytes
  import opened SeqSearch
  import opened Frames

  /** One reported covert-channel observation. `ipId` is in host byte order. */
  datatype Finding = Finding(
    icmpType: byte,
    src: Addr,
    dst: Addr,
    ipId: uint16,
    checksum: uint16,
    ttl: byte,
    payload: seq<byte>)

  /** The two address sets and the findings gathered so far. */
  datatype ScanState = ScanState(
    srcAddresses: set<Addr>,
    destAddresses: set<Addr>,
    findings: seq<Finding>)

  const Initial: ScanState := ScanState({}, {}, [])

  predicate IsEchoRequest(f: Frame) {
    f.icmp.Some? && f.icmp.value.icmpType == ECHO_REQUEST
  }

  /** The gate: `a` is in neither address set yet. */
  predicate Unseen(st: ScanState, a: Addr) {
    a !in st.srcAddresses && a !in st.destAddresses
  }

  /** The frame produces a finding when it arrives in state `st`. */
  ghost predicate Reports(st: ScanState, f: Frame) {
    && IsEchoRequest(f)
    && Unseen(st, f.ipv4.value.src)
    && Contains(f.firstLayerPayload, MARKER)
  }

  /** The finding a reported frame carries. */
  function FindingOf(f: Frame): (r: Finding)
    requires f.icmp.Some?
    ensures r.src == f.ipv4.value.src && r.dst == f.ipv4.value.dst
    ensures r.icmpType == f.icmp.value.icmpType && r.checksum == f.icmp.value.checksum
    ensures r.ttl == f.ipv4.value.ttl && r.payload == f.firstLayerPayload
    ensures NetToHost16(r.ipId) == f.ipv4.value.rawId
  {
    var ip := f.ipv4.value;
    var icmp := f.icmp.value;
    NetToHost16Involutive(ip.rawId);
    Finding(icmp.icmpType, ip.src, ip.dst, NetToHost16(ip.rawId), icmp.checksum, ip.ttl,
            f.firstLayerPayload)
  }

  /** One iteration of the capture loop. */
  function Step(st: ScanState, f: Frame): (r: ScanState)
    ensures !Reports(st, f) ==> r == st
    ensures Reports(st, f) ==>
      && r.srcAddresses == st.srcAddresses + {f.ipv4.value.src}
      && r.destAddresses == st.destAddresses + {f.ipv4.value.dst}
      && r.findings == st.findings + [FindingOf(f)]
  {
    if !IsEchoRequest(f) || !Unseen(st, f.ipv4.value.src) then st
    else if Find(f.firstLayerPayload, MARKER).Some? then
      var ip := f.ipv4.value;
      ScanState(st.srcAddresses + {ip.src}, st.destAddresses + {ip.dst},
                st.findings + [FindingOf(f)])
    else st
  }

  /**
    The state after the whole capture, frames taken in capture order; each
    frame adds at most one finding.
   */
  function Scan(frames: seq<Frame>): (r: ScanState)
    ensures |r.findings| <= |frames|
    decreases |frames|
  {
    if |frames| == 0 then Initial
    else Step(Scan(frames[..|frames| - 1]), frames[|frames| - 1])
  }

  /** The frames that are not ICMP Echo Requests never change the state. */
  lemma NonRequestIgnored(st: ScanState, f: Frame)
    requires !IsEchoRequest(f)
    ensures Step(st, f) == st
  {
  }

  /** The sources of a list of findings. */
  function Sources(fs: seq<Finding>): (r: set<Addr>)
    ensures forall k :: 0 <= k < |fs| ==> fs[k].src in r
  {
    if |fs| == 0 then {} else Sources(fs[..|fs| - 1]) + {fs[|fs| - 1].src}
  }

  /** The destinations of a list of findings. */
  function Destinations(fs: seq<Finding>): (r: set<Addr>)
    ensures forall k :: 0 <= k < |fs| ==> fs[k].dst in r
  {
    if |fs| == 0 then {} else Destinations(fs[..|fs| - 1]) + {fs[|fs| - 1].dst}
  }

  predicate DistinctSources(fs: seq<Finding>) {
    forall i, j :: 0 <= i < j < |fs| ==> fs[i].src != fs[j].src
  }

  /**
    What every reachable state satisfies: the sets hold exactly the addresses
    of the findings, and no source was reported twice.
   */
  ghost predicate Consistent(st: ScanState) {
    && st.srcAddresses == Sources(st.findings)
    && st.destAddresses == Destinations(st.findings)
    && DistinctSources(st.findings)
  }

  lemma StepPreservesConsistent(st: ScanState, f: Frame)
    requires Consistent(st)
    ensures Consistent(Step(st, f))
  {
    if Reports(st, f) {
      var fs := st.findings + [FindingOf(f)];
      assert fs[..|fs| - 1] == st.findings;
    }
  }

  /** After any capture the sets hold exactly the reported addresses and no source is reported twice. */
  lemma {:induction false} ScanConsistent(frames: seq<Frame>)
    ensures Consistent(Scan(frames))
    decreases |frames|
  {
    if |frames| > 0 {
      ScanConsistent(frames[..|frames| - 1]);
      StepPreservesConsistent(Scan(frames[..|frames| - 1]), frames[|frames| - 1]);
    }
  }

  /** Findings with pairwise distinct sources have as many sources as findings. */
  lemma {:induction false} DistinctSourcesCount(fs: seq<Finding>)
    requires DistinctSources(fs)
    ensures |Sources(fs)| == |fs|
    decreases |fs|
  {
    if |fs| > 0 {
      var init := fs[..|fs| - 1];
      DistinctSourcesCount(init);
      var last := fs[|fs| - 1].src;
      if last in Sources(init) {
        var k := SourceIndex(init, last);
        assert false;
      }
    }
  }

  /** A source of a list of findings comes from one of them. */
  lemma {:induction false} SourceIndex(fs: seq<Finding>, a: Addr) returns (k: nat)
    requires a in Sources(fs)
    ensures k < |fs| && fs[k].src == a
    decreases |fs|
  {
    if fs[|fs| - 1].src == a {
      k := |fs| - 1;
    } else {
      k := SourceIndex(fs[..|fs| - 1], a);
    }
  }

  /** The destination set never holds more addresses than there are findings. */
  lemma {:induction false} DestinationsBound(fs: seq<Finding>)
    ensures |Destinations(fs)| <= |fs|
    decreases |fs|
  {
    if |fs| > 0 {
      DestinationsBound(fs[..|fs| - 1]);
    }
  }

  /**
    After any capture, every reported source is distinct, so there are exactly
    as many findings as recorded sources, and at most as many destinations.
   */
  lemma FindingsMatchSources(frames: seq<Frame>)
    ensures |Scan(frames).findings| == |Scan(frames).srcAddresses|
    ensures |Scan(frames).destAddresses| <= |Scan(frames).findings|
    ensures DistinctSources(Scan(frames).findings)
  {
    ScanConsistent(frames);
    DistinctSourcesCount(Scan(frames).findings);
    DestinationsBound(Scan(frames).findings);
  }

  /** Sets only grow and findings are only appended, frame after frame. */
  lemma {:induction false} ScanMonotone(frames: seq<Frame>, i: nat, j: nat)
    requires i <= j <= |frames|
    ensures Scan(frames[..i]).srcAddresses <= Scan(frames[..j]).srcAddresses
    ensures Scan(frames[..i]).destAddresses <= Scan(frames[..j]).destAddresses
    ensures Scan(frames[..i]).findings <= Scan(frames[..j]).findings
    decreases j - i
  {
    if i < j {
      ScanMonotone(frames, i, j - 1);
      assert frames[..j][..j - 1] == frames[..j - 1];
    }
  }

  /**
    Once a source sits in either set, no later frame from that source is
    reported, however often it carries the marker.
   */
  lemma SeenSourceNeverReported(frames: seq<Frame>, i: nat, j: nat)
    requires i <= j < |frames|
    requires frames[j].ipv4.Some?
    requires frames[j].ipv4.value.src in
      Scan(frames[..i]).srcAddresses + Scan(frames[..i]).destAddresses
    ensures Scan(frames[..j + 1]) == Scan(frames[..j])
  {
    ScanMonotone(frames, i, j);
    assert frames[..j + 1][..j] == frames[..j];
  }

  /**
    The indices of the frames that produced findings, in capture order.
   */
  ghost function ReportedIndices(frames: seq<Frame>): seq<nat>
    decreases |frames|
  {
    if |frames| == 0 then []
    else
      var n := |frames| - 1;
      ReportedIndices(frames[..n]) + (if Reports(Scan(frames[..n]), frames[n]) then [n] else [])
  }

  /** The reporting frames are listed once each, in increasing capture order. */
  lemma {:induction false} ReportedIndicesAscending(frames: seq<Frame>)
    ensures var idx := ReportedIndices(frames);
      && |idx| == |Scan(frames).findings|
      && (forall k :: 0 <= k < |idx| ==> idx[k] < |frames|)
      && (forall k, l :: 0 <= k < l < |idx| ==> idx[k] < idx[l])
    decreases |frames|
  {
    if |frames| > 0 {
      ReportedIndicesAscending(frames[..|frames| - 1]);
    }
  }

  /**
    Findings appear in capture order: the k-th finding is the one the k-th
    reporting frame carries.
   */
  lemma {:induction false} FindingsInCaptureOrder(frames: seq<Frame>)
    ensures var idx := ReportedIndices(frames);
      && |idx| == |Scan(frames).findings|
      && forall k :: 0 <= k < |idx| ==>
           idx[k] < |frames| && frames[idx[k]].icmp.Some?
           && Scan(frames).findings[k] == FindingOf(frames[idx[k]])
    decreases |frames|
  {
    ReportedIndicesAscending(frames);
    if |frames| > 0 {
      var n := |frames| - 1;
      var init := frames[..n];
      FindingsInCaptureOrder(init);
      var idx0 := ReportedIndices(init);
      forall k | 0 <= k < |idx0|
        ensures init[idx0[k]] == frames[idx0[k]]
      {
      }
    }
  }

  /** A frame index is listed exactly when that frame was reported. */
  lemma {:induction false} ReportedIndicesExact(frames: seq<Frame>)
    ensures forall j :: 0 <= j < |frames| ==>
      (j in ReportedIndices(frames) <==> Reports(Scan(frames[..j]), frames[j]))
    decreases |frames|
  {
    if |frames| > 0 {
      var n := |frames| - 1;
      var init := frames[..n];
      ReportedIndicesExact(init);
      ReportedIndicesAscending(init);
      var idx0 := ReportedIndices(init);
      var tail: seq<nat> := if Reports(Scan(init), frames[n]) then [n] else [];
      assert ReportedIndices(frames) == idx0 + tail;
      assert n !in idx0;
      forall j | 0 <= j < |frames|
        ensures j in idx0 + tail <==> Reports(Scan(frames[..j]), frames[j])
      {
        if j < n {
          assert init[..j] == frames[..j] && init[j] == frames[j];
          assert j !in tail;
        } else {
          assert frames[..j] == init;
        }
      }
    }
  }
}

=== FILE: frames.dfy ===
/**
  The detector's view of one captured frame, as the packet decoder exposes it:
  an optional IPv4 header, an optional ICMP header and the payload of the
  frame's first (outermost) layer. The capture-file reader and the decoder
  themselves are not part of this model; they only supply these values.
 */
module Frames {
  import opened Outcomes
  import opened Bytes

  /** An IPv4 address as its 32-bit numeric value (a.b.c.d is a*2^24 + b*2^16 + c*2^8 + d). */
  type Addr = uint32

  /**
    The IPv4 header fields the detector reads. `rawId` is the identification
    field as the 16-bit word held in memory, i.e. still in network byte order.
   */
  datatype Ipv4Header = Ipv4Header(src: Addr, dst: Addr, rawId: uint16, ttl: byte)

  /** The ICMP header fields the detector reads; the checksum is the stored word. */
  datatype IcmpHeader = IcmpHeader(icmpType: byte, checksum: uint16)

  datatype DecodedFrame = DecodedFrame(
    ipv4: Option<Ipv4Header>,
    icmp: Option<IcmpHeader>,
    firstLayerPayload: seq<byte>)

  /** The decoder only recognises ICMP on top of IPv4. */
  predicate LayersConsistent(f: DecodedFrame) {
    f.icmp.Some? ==> f.ipv4.Some?
  }

  type Frame = f: DecodedFrame | LayersConsistent(f) witness DecodedFrame(None, None, [])

  /** ICMP Echo Request, the Echo or Echo Reply Message of RFC 792. */
  const ECHO_REQUEST: byte := 8

  /** The marker "LOVE" as bytes. */
  const MARKER: seq<byte> := [0x4C, 0x4F, 0x56, 0x45]

  /**
    `netToHost16` on a little-endian host: the two bytes of the word trade
    places.
   */
  function NetToHost16(x: uint16): (r: uint16)
    ensures r / 0x100 == x % 0x100
    ensures r % 0x100 == x / 0x100
  {
    (x % 0x100) * 0x100 + x / 0x100
  }

  /** Swapping twice gives back the word. */
  lemma NetToHost16Involutive(x: uint16)
    ensures NetToHost16(NetToHost16(x)) == x
  {
  }
}

=== FILE: hex.dfy ===
/**
  Hexadecimal text and byte strings as the packet parser uses them: Python's
  `bytes.hex()` and `f"{n:02X}"`, `bytearray.fromhex`, `int(s, 16)` and
  `int.to_bytes(n, 'big')`.
 */
module Hex {
  import opened Outcomes
  import opened Bytes

  predicate IsHexDigit(c: char) {
    '0' <= c <= '9' || 'a' <= c <= 'f' || 'A' <= c <= 'F'
  }

  predicate AllHex(s: string) {
    forall k :: 0 <= k < |s| ==> IsHexDigit(s[k])
  }

  /** Hexadecimal digits with no upper-case letter, as `bytes.hex()` prints them. */
  predicate AllLowerHex(s: string) {
    forall k :: 0 <= k < |s| ==> IsHexDigit(s[k]) && !('A' <= s[k] <= 'F')
  }

  /** The value of one hexadecimal digit, either case. */
  function DigitValue(c: char): (v: nat)
    requires IsHexDigit(c)
    ensures v < 16
  {
    if '0' <= c <= '9' then c as int - '0' as int
    else if 'a' <= c <= 'f' then c as int - 'a' as int + 10
    else c as int - 'A' as int + 10
  }

  /** The digit for `n`, in upper or lower case. */
  function Digit(n: nat, upper: bool): (c: char)
    requires n < 16
    ensures IsHexDigit(c) && DigitValue(c) == n
    ensures upper ==> !('a' <= c <= 'f')
    ensures !upper ==> !('A' <= c <= 'F')
  {
    if n < 10 then ('0' as int + n) as char
    else if upper then ('A' as int + n - 10) as char
    else ('a' as int + n - 10) as char
  }

  /** Two digits per byte, high nibble first (`bytes.hex()` when lower case, `{n:02X}` when upper). */
  function HexDigits(bs: seq<byte>, upper: bool): (s: string)
    ensures |s| == 2 * |bs|
    ensures AllHex(s)
    ensures !upper ==> AllLowerHex(s)
    ensures upper ==> forall k :: 0 <= k < |s| ==> !('a' <= s[k] <= 'f')
    decreases |bs|
  {
    if |bs| == 0 then []
    else [Digit(bs[0] as int / 16, upper), Digit(bs[0] as int % 16, upper)] + HexDigits(bs[1..], upper)
  }

  /** Printing a concatenation prints the parts one after the other. */
  lemma {:induction false} HexDigitsAppend(x: seq<byte>, y: seq<byte>, upper: bool)
    ensures HexDigits(x + y, upper) == HexDigits(x, upper) + HexDigits(y, upper)
    decreases |x|
  {
    if |x| > 0 {
      assert (x + y)[0] == x[0];
      assert (x + y)[1..] == x[1..] + y;
      HexDigitsAppend(x[1..], y, upper);
    } else {
      assert x + y == y;
    }
  }

  /** Digits 2i..2j of the printed text are the printed bytes i..j. */
  lemma HexDigitsSlice(bs: seq<byte>, i: nat, j: nat, upper: bool)
    requires i <= j <= |bs|
    ensures HexDigits(bs, upper)[2 * i..2 * j] == HexDigits(bs[i..j], upper)
  {
    var a, b, c := bs[..i], bs[i..j], bs[j..];
    assert bs == a + b + c;
    HexDigitsAppend(a + b, c, upper);
    HexDigitsAppend(a, b, upper);
  }

  function Pow(base: nat, e: nat): (p: nat)
    requires base > 0
    ensures p > 0
  {
    if e == 0 then 1 else base * Pow(base, e - 1)
  }

  /** The number a string of hexadecimal digits denotes, most significant first. */
  function HexValue(s: string): nat
    requires AllHex(s)
    decreases |s|
  {
    if |s| == 0 then 0 else HexValue(s[..|s| - 1]) * 16 + DigitValue(s[|s| - 1])
  }

  /** Big-endian value of a byte string. */
  function BigEndianValue(bs: seq<byte>): nat
    decreases |bs|
  {
    if |bs| == 0 then 0 else BigEndianValue(bs[..|bs| - 1]) * 256 + bs[|bs| - 1] as int
  }

  /** Little-endian value of a byte string: the first byte is the least significant. */
  function LittleEndianValue(bs: seq<byte>): nat
    decreases |bs|
  {
    if |bs| == 0 then 0 else bs[0] as int + 256 * LittleEndianValue(bs[1..])
  }

  function Reverse<T>(s: seq<T>): (r: seq<T>)
    ensures |r| == |s|
    ensures forall k :: 0 <= k < |s| ==> r[k] == s[|s| - 1 - k]
    decreases |s|
  {
    if |s| == 0 then [] else Reverse(s[1..]) + [s[0]]
  }

  lemma ReverseReverse<T>(s: seq<T>)
    ensures Reverse(Reverse(s)) == s
  {
  }

  /** ASCII whitespace as `bytearray.fromhex` skips it. */
  predicate IsPyWhitespace(c: char) {
    c == ' ' || c == '\t' || c == '\n' || c == '\r' || c as int == 0x0B || c as int == 0x0C
  }

  /**
    `bytearray.fromhex`: pairs of hexadecimal digits, optionally separated by
    whitespace; anything else (an odd digit, a non-digit) is a `ValueError`,
    here None.
   */
  function FromHex(s: string): (r: Option<seq<byte>>)
    ensures r.Some? ==> 2 * |r.value| <= |s|
    ensures AllHex(s) ==> (r.Some? <==> |s| % 2 == 0)
    ensures AllHex(s) && r.Some? ==> 2 * |r.value| == |s|
    decreases |s|
  {
    if |s| == 0 then Some([])
    else if IsPyWhitespace(s[0]) then FromHex(s[1..])
    else if |s| >= 2 && IsHexDigit(s[0]) && IsHexDigit(s[1]) then
      match FromHex(s[2..])
      case None => None
      case Some(rest) => Some([(DigitValue(s[0]) * 16 + DigitValue(s[1])) as byte] + rest)
    else None
  }

  /** `int.to_bytes(n, 'big')` for a value that fits in `n` bytes. */
  function ToBytesBigEndian(v: nat, n: nat): (bs: seq<byte>)
    requires v < Pow(256, n)
    ensures |bs| == n
    ensures BigEndianValue(bs) == v
    decreases n
  {
    if n == 0 then []
    else
      var init := ToBytesBigEndian(v / 256, n - 1);
      var bs := init + [(v % 256) as byte];
      assert bs[..|bs| - 1] == init;
      bs
  }

  function LowerChar(c: char): char {
    if 'A' <= c <= 'F' then (c as int + 32) as char else c
  }

  /** Lower-cases the hexadecimal letters of a digit string. */
  function LowerHex(s: string): (r: string)
    ensures |r| == |s|
    ensures forall k :: 0 <= k < |s| ==> r[k] == LowerChar(s[k])
    decreases |s|
  {
    if |s| == 0 then [] else [LowerChar(s[0])] + LowerHex(s[1..])
  }

  // ---------------------------------------------------------------- lemmas

  /** Reading the digits back gives the bytes' big-endian value. */
  lemma {:induction false} HexValueOfDigits(bs: seq<byte>, upper: bool)
    ensures HexValue(HexDigits(bs, upper)) == BigEndianValue(bs)
    decreases |bs|
  {
    if |bs| > 0 {
      var init, b := bs[..|bs| - 1], bs[|bs| - 1];
      assert bs == init + [b];
      var hi, lo := Digit(b as int / 16, upper), Digit(b as int % 16, upper);
      HexDigitsAppend(init, [b], upper);
      assert [b][1..] == [];
      assert HexDigits([b], upper) == [hi, lo];
      HexValueOfDigits(init, upper);
      HexValueTwoMore(HexDigits(init, upper), hi, lo);
      assert DigitValue(hi) * 16 + DigitValue(lo) == b as int;
    }
  }

  /** Two more digits multiply the value by 256 and add the byte they spell. */
  lemma HexValueTwoMore(t: string, hi: char, lo: char)
    requires AllHex(t) && IsHexDigit(hi) && IsHexDigit(lo)
    ensures AllHex(t + [hi, lo])
    ensures HexValue(t + [hi, lo]) == HexValue(t) * 256 + DigitValue(hi) * 16 + DigitValue(lo)
  {
    var s := t + [hi, lo];
    assert s[..|s| - 1] == t + [hi];
    assert (t + [hi])[..|t|] == t;
    assert HexValue(s) == HexValue(t + [hi]) * 16 + DigitValue(lo);
    assert HexValue(t + [hi]) == HexValue(t) * 16 + DigitValue(hi);
  }

  lemma {:induction false} HexValueBound(s: string)
    requires AllHex(s)
    ensures HexValue(s) < Pow(16, |s|)
    decreases |s|
  {
    if |s| > 0 {
      HexValueBound(s[..|s| - 1]);
    }
  }

  lemma {:induction false} BigEndianValueBound(bs: seq<byte>)
    ensures BigEndianValue(bs) < Pow(256, |bs|)
    decreases |bs|
  {
    if |bs| > 0 {
      BigEndianValueBound(bs[..|bs| - 1]);
    }
  }

  /** `fromhex` undoes `hex`. */
  lemma {:induction false} FromHexOfDigits(bs: seq<byte>, upper: bool)
    ensures FromHex(HexDigits(bs, upper)) == Some(bs)
    decreases |bs|
  {
    if |bs| > 0 {
      var b, rest := bs[0], bs[1..];
      var hi, lo := Digit(b as int / 16, upper), Digit(b as int % 16, upper);
      var s := HexDigits(bs, upper);
      assert s == [hi, lo] + HexDigits(rest, upper);
      assert s[0] == hi && s[1] == lo && s[2..] == HexDigits(rest, upper);
      assert !IsPyWhitespace(hi) && IsHexDigit(hi) && IsHexDigit(lo);
      FromHexOfDigits(rest, upper);
      assert (DigitValue(hi) * 16 + DigitValue(lo)) as byte == b;
      assert FromHex(s) == Some([b] + rest);
      assert [b] + rest == bs;
    }
  }

  /** Writing the bytes' value back at full width gives the bytes. */
  lemma {:induction false} ToBytesOfValue(bs: seq<byte>)
    ensures BigEndianValue(bs) < Pow(256, |bs|)
    ensures ToBytesBigEndian(BigEndianValue(bs), |bs|) == bs
    decreases |bs|
  {
    BigEndianValueBound(bs);
    if |bs| > 0 {
      var init, last := bs[..|bs| - 1], bs[|bs| - 1];
      ToBytesOfValue(init);
      DivModByte(BigEndianValue(init), last as int);
      assert bs == init + [last];
    }
  }

  lemma DivModByte(q: nat, r: nat)
    requires r < 256
    ensures (q * 256 + r) / 256 == q && (q * 256 + r) % 256 == r
  {
  }

  /** Leading zero bytes do not change a big-endian value. */
  lemma {:induction false} LeadingZerosValue(z: seq<byte>, bs: seq<byte>)
    requires forall k :: 0 <= k < |z| ==> z[k] == 0
    ensures BigEndianValue(z + bs) == BigEndianValue(bs)
    decreases |bs|
  {
    if |bs| == 0 {
      assert z + bs == z;
      ZerosValue(z);
    } else {
      var init := bs[..|bs| - 1];
      assert (z + bs)[..|z + bs| - 1] == z + init;
      LeadingZerosValue(z, init);
    }
  }

  lemma {:induction false} ZerosValue(z: seq<byte>)
    requires forall k :: 0 <= k < |z| ==> z[k] == 0
    ensures BigEndianValue(z) == 0
    decreases |z|
  {
    if |z| > 0 {
      ZerosValue(z[..|z| - 1]);
    }
  }

  /** Reading a byte string little-endian is reading its reversal big-endian. */
  lemma {:induction false} ReverseValue(bs: seq<byte>)
    ensures BigEndianValue(Reverse(bs)) == LittleEndianValue(bs)
    decreases |bs|
  {
    if |bs| > 0 {
      ReverseValue(bs[1..]);
      var r := Reverse(bs);
      assert r[..|r| - 1] == Reverse(bs[1..]);
    }
  }

  /** Parsing and re-printing in lower case only lower-cases the digits. */
  lemma {:induction false} DigitsOfFromHex(s: string)
    requires AllHex(s) && |s| % 2 == 0
    ensures FromHex(s).Some?
    ensures |FromHex(s).value| == |s| / 2
    ensures HexDigits(FromHex(s).value, false) == LowerHex(s)
    decreases |s|
  {
    if |s| > 0 {
      DigitsOfFromHex(s[2..]);
      var rest := FromHex(s[2..]).value;
      var b := PairByte(s[0], s[1]);
      FromHexPair(s);
      assert FromHex(s).value == [b] + rest;
      DigitsStep(s, rest, b);
    }
  }

  /** One pair of digits more: lower-case re-printing still agrees with the text. */
  lemma DigitsStep(s: string, rest: seq<byte>, b: byte)
    requires |s| >= 2
    requires Digit(b as int / 16, false) == LowerChar(s[0]) && Digit(b as int % 16, false) == LowerChar(s[1])
    requires HexDigits(rest, false) == LowerHex(s[2..])
    ensures HexDigits([b] + rest, false) == LowerHex(s)
  {
    HexDigitsCons(b, rest, false);
    LowerHexPair(s);
  }

  /** Two leading digits are one byte in front of the rest's bytes. */
  lemma FromHexPair(s: string)
    requires |s| >= 2 && IsHexDigit(s[0]) && IsHexDigit(s[1]) && FromHex(s[2..]).Some?
    ensures FromHex(s) == Some([(DigitValue(s[0]) * 16 + DigitValue(s[1])) as byte] + FromHex(s[2..]).value)
  {
    assert !IsPyWhitespace(s[0]);
  }

  lemma HexDigitsCons(b: byte, rest: seq<byte>, upper: bool)
    ensures HexDigits([b] + rest, upper)
         == [Digit(b as int / 16, upper), Digit(b as int % 16, upper)] + HexDigits(rest, upper)
  {
    assert ([b] + rest)[1..] == rest;
  }

  lemma LowerHexPair(s: string)
    requires |s| >= 2
    ensures LowerHex(s) == [LowerChar(s[0]), LowerChar(s[1])] + LowerHex(s[2..])
  {
    assert s[1..][1..] == s[2..];
  }

  /** The byte two digits denote, and its lower-case digits. */
  lemma PairByte(c0: char, c1: char) returns (b: byte)
    requires IsHexDigit(c0) && IsHexDigit(c1)
    ensures b == (DigitValue(c0) * 16 + DigitValue(c1)) as byte
    ensures Digit(b as int / 16, false) == LowerChar(c0)
    ensures Digit(b as int % 16, false) == LowerChar(c1)
  {
    var h, l := DigitValue(c0), DigitValue(c1);
    b := (h * 16 + l) as byte;
    assert b as int == h * 16 + l;
    assert b as int / 16 == h && b as int % 16 == l;
  }
}

=== FILE: little_endian.dfy ===
/**
  `little_endian_conv` of `packet_parser.py`: reads a hexadecimal string as
  bytes, reverses them, and prints their value as an 8-byte big-endian
  number in lower-case hexadecimal.
 */
module LittleEndian {
  import opened Outcomes
  import opened Bytes
  import opened Hex
  import opened PyErrors

  /** 2^64, the first value that does not fit in 8 bytes. */
  const EIGHT_BYTE_LIMIT: nat := 0x1_0000_0000_0000_0000

  lemma EightByteLimit()
    ensures Pow(256, 8) == EIGHT_BYTE_LIMIT
  {
  }

  function Zeros(n: nat): (z: seq<byte>)
    ensures |z| == n && forall k :: 0 <= k < n ==> z[k] == 0
  {
    seq(n, _ => 0)
  }

  /**
    `little_endian_conv(num)`. It fails where `bytearray.fromhex` rejects
    the text, where no bytes are left (`int('', 16)`) and where the value
    needs more than 8 bytes (`to_bytes(8, 'big')`). On success the result is
    16 lower-case digits whose value is the input bytes read little-endian.
   */
  function LittleEndianConv(num: string): (r: Result<string, PyError>)
    ensures r.Ok? <==>
      && FromHex(num).Some?
      && |FromHex(num).value| > 0
      && LittleEndianValue(FromHex(num).value) < EIGHT_BYTE_LIMIT
    ensures FromHex(num).None? ==> r == Err(ValueError)
    ensures FromHex(num) == Some([]) ==> r == Err(ValueError)
    ensures FromHex(num).Some? && LittleEndianValue(FromHex(num).value) >= EIGHT_BYTE_LIMIT ==>
      r == Err(OverflowError)
    ensures r.Ok? ==>
      && |r.value| == 16
      && AllLowerHex(r.value)
      && HexValue(r.value) == LittleEndianValue(FromHex(num).value)
  {
    match FromHex(num)
    case None => Err(ValueError)
    case Some(big) =>
      var little := HexDigits(Reverse(big), true);
      if |little| == 0 then Err(ValueError)
      else
        var value := HexValue(little);
        HexValueOfDigits(Reverse(big), true);
        ReverseValue(big);
        EightByteLimit();
        if value >= Pow(256, 8) then Err(OverflowError)
        else
          var out := ToBytesBigEndian(value, 8);
          HexValueOfDigits(out, false);
          Ok(HexDigits(out, false))
  }

  /**
    For 1 to 8 input bytes the result is exactly those bytes in reverse
    order, left-padded with zero bytes to 8 bytes, in lower-case hex.
   */
  lemma ConvReversesAndPads(num: string)
    requires FromHex(num).Some?
    requires 0 < |FromHex(num).value| <= 8
    ensures var b := FromHex(num).value;
      LittleEndianConv(num) == Ok(HexDigits(Zeros(8 - |b|) + Reverse(b), false))
  {
    var b := FromHex(num).value;
    var rb := Reverse(b);
    var little := HexDigits(rb, true);
    HexValueOfDigits(rb, true);
    ReverseValue(b);
    ShortValueFits(b);
    EightByteLimit();
    var padded := Zeros(8 - |b|) + rb;
    LeadingZerosValue(Zeros(8 - |b|), rb);
    ToBytesOfValue(padded);
    assert HexValue(little) == BigEndianValue(padded);
    assert ToBytesBigEndian(HexValue(little), 8) == padded;
  }

  /** Every byte string of 8 bytes or fewer is below 2^64 read either way. */
  lemma {:induction false} ShortValueFits(b: seq<byte>)
    requires |b| <= 8
    ensures LittleEndianValue(b) < EIGHT_BYTE_LIMIT
  {
    ReverseValue(b);
    BigEndianValueBound(Reverse(b));
    PowMonotone(256, |b|, 8);
    EightByteLimit();
  }

  lemma {:induction false} PowMonotone(base: nat, i: nat, j: nat)
    requires base > 0 && i <= j
    ensures Pow(base, i) <= Pow(base, j)
    decreases j - i
  {
    if i < j {
      PowMonotone(base, i, j - 1);
    }
  }

  /** A byte string is worth at least its last (most significant) byte's place. */
  lemma {:induction false} LastByteWeight(b: seq<byte>)
    requires |b| > 0
    ensures LittleEndianValue(b) >= Pow(256, |b| - 1) * b[|b| - 1] as int
    decreases |b|
  {
    if |b| > 1 {
      LastByteWeight(b[1..]);
      assert b[1..][|b| - 2] == b[|b| - 1];
    }
  }

  /** Empty input and an odd number of digits are rejected with `ValueError`. */
  lemma ConvRejectsMalformed(num: string)
    ensures |num| == 0 ==> LittleEndianConv(num) == Err(ValueError)
    ensures AllHex(num) && |num| % 2 == 1 ==> LittleEndianConv(num) == Err(ValueError)
  {
    if AllHex(num) && |num| % 2 == 1 {
      OddHexRejected(num);
    }
  }

  /** More than 8 significant bytes overflow `to_bytes(8, 'big')`. */
  lemma ConvOverflows(num: string)
    requires FromHex(num).Some?
    requires var b := FromHex(num).value; |b| > 8 && b[|b| - 1] != 0
    ensures LittleEndianConv(num) == Err(OverflowError)
  {
    OverflowValue(FromHex(num).value);
  }

  /** A nonzero byte past the eighth puts the little-endian value at 2^64 or above. */
  lemma OverflowValue(b: seq<byte>)
    requires |b| > 8 && b[|b| - 1] != 0
    ensures LittleEndianValue(b) >= EIGHT_BYTE_LIMIT
  {
    var weight := Pow(256, |b| - 1);
    LastByteWeight(b);
    assert weight * b[|b| - 1] as int >= weight by {
      assert b[|b| - 1] as int >= 1;
    }
    PowMonotone(256, 8, |b| - 1);
    EightByteLimit();
  }

  /** An odd number of digits leaves one digit without a partner. */
  lemma {:induction false} OddHexRejected(s: string)
    requires AllHex(s) && |s| % 2 == 1
    ensures FromHex(s).None?
    decreases |s|
  {
    if |s| > 1 {
      OddHexRejected(s[2..]);
    }
  }

  /**
    On 16 digits the conversion is an involution up to letter case: applied
    twice it gives back the input in lower case.
   */
  lemma ConvTwice(num: string)
    requires AllHex(num) && |num| == 16
    ensures LittleEndianConv(num).Ok?
    ensures LittleEndianConv(LittleEndianConv(num).value) == Ok(LowerHex(num))
  {
    DigitsOfFromHex(num);
    var b := FromHex(num).value;
    ConvReversesAndPads(num);
    assert Zeros(0) + Reverse(b) == Reverse(b);
    var once := HexDigits(Reverse(b), false);
    FromHexOfDigits(Reverse(b), false);
    ConvReversesAndPads(once);
    ReverseReverse(b);
    assert Zeros(0) + Reverse(Reverse(b)) == b;
  }
}

=== FILE: mqtt_bridge.dfy ===
/**
  The message handling of `mqtt_to_influx.py`: a topic of the form
  `bandwidth/<location>/<measurement>` with a numeric payload becomes one
  measurement point; `status` messages and other topics are dropped.
  Decoding the payload as UTF-8 and `float()` are parameters of the model.
 */
module MqttBridge {
  import opened Outcomes
  import opened Bytes
  import opened PyErrors

  const TOPIC_PREFIX: string := "bandwidth/"
  const STATUS: string := "status"

  datatype NetworkData<V> = NetworkData(location: string, measurement: string, value: V)

  /** The point written to the database: measurement name, location tag, value field. */
  datatype Point<V> = Point(measurement: string, location: string, value: V)

  /** The longest prefix of `s` without '/': what a greedy `[^/]+` consumes. */
  function NonSlashRun(s: string): (r: string)
    ensures r <= s && '/' !in r
    ensures |r| == |s| || s[|r|] == '/'
    decreases |s|
  {
    if |s| == 0 || s[0] == '/' then [] else [s[0]] + NonSlashRun(s[1..])
  }

  /**
    The topic starts with `bandwidth/<location>/<measurement>`, both segments
    non-empty and free of '/', and the measurement segment runs up to the
    end of the topic or to the next '/'.
   */
  predicate Matches(topic: string, location: string, measurement: string) {
    var head := TOPIC_PREFIX + location + "/" + measurement;
    && |location| > 0 && '/' !in location
    && |measurement| > 0 && '/' !in measurement
    && head <= topic
    && (|topic| == |head| || topic[|head|] == '/')
  }

  /**
    `re.match('bandwidth/([^/]+)/([^/]+)', topic)` and its two groups. The
    match is anchored at the start only, so whatever follows the second group
    is ignored. It finds groups exactly when the topic fits `Matches`, and
    then the only groups that fit.
   */
  function MatchTopic(topic: string): (r: Option<(string, string)>)
    ensures r.Some? ==> Matches(topic, r.value.0, r.value.1)
    ensures forall location, measurement :: Matches(topic, location, measurement) ==>
      r == Some((location, measurement))
  {
    if !(TOPIC_PREFIX <= topic) then
      NoMatchWithoutPrefix(topic);
      None
    else
      var rest := topic[|TOPIC_PREFIX|..];
      var location := NonSlashRun(rest);
      GroupsAreRuns(topic);
      if |location| == 0 || |location| == |rest| then None
      else
        var measurement := NonSlashRun(rest[|location| + 1..]);
        if |measurement| == 0 then None
        else
          RunsMatch(topic, location, measurement);
          Some((location, measurement))
  }

  /** A run of non-slash characters followed by the end or a '/' is what the greedy run takes. */
  lemma {:induction false} NonSlashRunOf(a: string, b: string)
    requires '/' !in a
    requires |b| == 0 || b[0] == '/'
    ensures NonSlashRun(a + b) == a
    decreases |a|
  {
    if |a| > 0 {
      assert (a + b)[1..] == a[1..] + b;
      NonSlashRunOf(a[1..], b);
    } else {
      assert a + b == b;
    }
  }

  lemma NoMatchWithoutPrefix(topic: string)
    requires !(TOPIC_PREFIX <= topic)
    ensures forall location, measurement :: !Matches(topic, location, measurement)
  {
    forall location, measurement | Matches(topic, location, measurement)
      ensures false
    {
      assert false;
    }
  }

  /**
    Whenever `Matches` holds, its groups are the two greedy runs the matcher
    takes: after the prefix, `location` is the first run and `measurement`
    the run after the next '/'.
   */
  lemma GroupsAreRuns(topic: string)
    requires TOPIC_PREFIX <= topic
    ensures forall location, measurement :: Matches(topic, location, measurement) ==>
      var rest := topic[|TOPIC_PREFIX|..];
      && NonSlashRun(rest) == location && |location| < |rest|
      && NonSlashRun(rest[|location| + 1..]) == measurement
  {
    forall location, measurement | Matches(topic, location, measurement)
      ensures var rest := topic[|TOPIC_PREFIX|..];
        && NonSlashRun(rest) == location && |location| < |rest|
        && NonSlashRun(rest[|location| + 1..]) == measurement
    {
      var head := TOPIC_PREFIX + location + "/" + measurement;
      var tail := topic[|head|..];
      assert topic == head + tail;
      var rest := topic[|TOPIC_PREFIX|..];
      var after := measurement + tail;
      assert rest == location + ("/" + after);
      NonSlashRunOf(location, "/" + after);
      assert rest[|location| + 1..] == after;
      NonSlashRunOf(measurement, tail);
    }
  }

  /** The runs the matcher takes, when both are non-empty, satisfy `Matches`. */
  lemma RunsMatch(topic: string, location: string, measurement: string)
    requires TOPIC_PREFIX <= topic
    requires location == NonSlashRun(topic[|TOPIC_PREFIX|..])
    requires 0 < |location| < |topic| - |TOPIC_PREFIX|
    requires measurement == NonSlashRun(topic[|TOPIC_PREFIX| + |location| + 1..])
    requires |measurement| > 0
    ensures Matches(topic, location, measurement)
  {
    var p := |TOPIC_PREFIX|;
    var rest := topic[p..];
    assert location <= rest && rest[|location|] == '/';
    var after := rest[|location| + 1..];
    assert after == topic[p + |location| + 1..];
    ReassembleHead(topic, TOPIC_PREFIX, location, measurement);
    assert |measurement| == |after| || after[|measurement|] == '/';
  }

  /** A prefix, a first segment, a '/' and a second segment, read off in turn, make a prefix. */
  lemma ReassembleHead(t: string, prefix: string, first: string, second: string)
    requires prefix <= t
    requires first <= t[|prefix|..]
    requires |prefix| + |first| < |t| && t[|prefix| + |first|] == '/'
    requires second <= t[|prefix| + |first| + 1..]
    ensures prefix + first + "/" + second <= t
  {
    ConcatPrefix(t, prefix, first);
    var upToFirst := prefix + first;
    assert t[|upToFirst|..][0] == '/';
    ConcatPrefix(t, upToFirst, "/");
    var upToSlash := upToFirst + "/";
    assert t[|upToSlash|..] == t[|prefix| + |first| + 1..];
    ConcatPrefix(t, upToSlash, second);
  }

  /** Two consecutive prefixes make a prefix. */
  lemma ConcatPrefix<T>(t: seq<T>, u: seq<T>, v: seq<T>)
    requires u <= t && v <= t[|u|..]
    ensures u + v <= t
  {
    assert (u + v)[..|u|] == u;
    assert t[..|u| + |v|] == t[..|u|] + t[|u|..][..|v|];
  }

  /** Extra segments after the measurement are ignored. */
  lemma TrailingSegmentsIgnored()
    ensures MatchTopic("bandwidth/a/b/c") == Some(("a", "b"))
  {
    assert Matches("bandwidth/a/b/c", "a", "b");
  }

  /**
    `_parse_mqtt_message(topic, payload)`: None when the topic does not
    match or names the `status` measurement (the payload is not read then);
    otherwise the data with the payload converted by `toFloat`, whose failure
    is a `ValueError`.
   */
  function ParseMqttMessage<V>(topic: string, payload: string, toFloat: string -> Option<V>)
    : (r: Result<Option<NetworkData<V>>, PyError>)
    ensures MatchTopic(topic).None? ==> r == Ok(None)
    ensures MatchTopic(topic).Some? && MatchTopic(topic).value.1 == STATUS ==> r == Ok(None)
    ensures r.Err? <==>
      MatchTopic(topic).Some? && MatchTopic(topic).value.1 != STATUS && toFloat(payload).None?
    ensures r.Err? ==> r.error == ValueError
    ensures MatchTopic(topic).Some? && MatchTopic(topic).value.1 != STATUS && toFloat(payload).Some? ==>
      r == Ok(Some(NetworkData(MatchTopic(topic).value.0, MatchTopic(topic).value.1, toFloat(payload).value)))
    ensures forall location, measurement :: Matches(topic, location, measurement) && measurement != STATUS && toFloat(payload).Some? ==>
      r == Ok(Some(NetworkData(location, measurement, toFloat(payload).value)))
    ensures r.Ok? && r.value.Some? ==>
      && Matches(topic, r.value.value.location, r.value.value.measurement)
      && r.value.value.measurement != STATUS
      && toFloat(payload) == Some(r.value.value.value)
  {
    match MatchTopic(topic)
    case None => Ok(None)
    case Some(groups) =>
      var (location, measurement) := groups;
      if measurement == STATUS then Ok(None)
      else
        match toFloat(payload)
        case None => Err(ValueError)
        case Some(v) => Ok(Some(NetworkData(location, measurement, v)))
  }

  /**
    `on_message`: decodes the payload, parses the message, and forwards a
    point exactly when parsing gives data. A payload that is not UTF-8 raises
    whatever the topic.
   */
  function OnMessage<V>(topic: string, payload: seq<byte>, decodeUtf8: seq<byte> -> Option<string>,
                        toFloat: string -> Option<V>): (r: Result<Option<Point<V>>, PyError>)
    ensures decodeUtf8(payload).None? ==> r == Err(UnicodeDecodeError)
    ensures decodeUtf8(payload).Some? ==>
      var parsed := ParseMqttMessage(topic, decodeUtf8(payload).value, toFloat);
      && (r.Err? <==> parsed.Err?)
      && (r.Err? ==> r.error == parsed.error)
      && (r.Ok? && r.value.Some? <==> parsed.Ok? && parsed.value.Some?)
      && (r.Ok? && r.value.Some? ==>
            r.value.value == Point(parsed.value.value.measurement, parsed.value.value.location,
                                   parsed.value.value.value))
  {
    match decodeUtf8(payload)
    case None => Err(UnicodeDecodeError)
    case Some(text) =>
      var data :- ParseMqttMessage(topic, text, toFloat);
      if data.None? then Ok(None)
      else Ok(Some(Point(data.value.measurement, data.value.location, data.value.value)))
  }
}

=== FILE: outcomes.dfy ===
/** Optional values and computations that may raise, usable with the `:-` operator. */
module Outcomes {

  /** A value that may be absent (Python's `None`, a missing protocol layer). */
  datatype Option<+T> = None | Some(value: T) {
    predicate IsFailure() {
      None?
    }

    function PropagateFailure<U>(): Option<U>
      requires None?
    {
      None
    }

    function Extract(): T
      requires Some?
    {
      value
    }
  }

  /** Either a value or the error (exception) that the modelled code raises. */
  datatype Result<+T, +E> = Ok(value: T) | Err(error: E) {
    predicate IsFailure() {
      Err?
    }

    function PropagateFailure<U>(): Result<U, E>
      requires Err?
    {
      Err(error)
    }

    function Extract(): T
      requires Ok?
    {
      value
    }
  }
}

=== FILE: packet_parser.dfy ===
/**
  The per-packet classification loop of `packet_parser.py`: every packet with
  an IP layer becomes one row; the row's header fields depend on which marker
  the packet's hexadecimal text contains.
 */
module PacketParser {
  import opened Outcomes
  import opened Bytes
  import opened SeqSearch
  import opened Hex
  import opened PyErrors
  import opened LittleEndian

  /** The IP layer's addresses, as the dotted strings the parser stores. */
  datatype IpLayer = IpLayer(src: string, dst: string)

  /** A packet read from the capture: optional IP layer, arrival time, raw bytes. */
  datatype CapturedPacket = CapturedPacket(ip: Option<IpLayer>, time: real, bytes: seq<byte>)

  /**
    The script-level variable `send_time`: never assigned yet, `None`, or the
    send time scraped from a HiPerConTracer header (in milliseconds; its
    rendering as local date and time is not modelled).
   */
  datatype SendTime = Unbound | NoSendTime | SentAtMillis(millis: nat)

  /** The `TTL` column holds a header byte or, outside HiPerConTracer, the arrival time. */
  datatype TtlCell = HeaderTtl(ttl: nat) | ArrivalTime(time: real)

  /** One row of the output table. */
  datatype Row = Row(
    src: string,
    dst: string,
    arrival: real,
    magic: Option<nat>,
    ttl: TtlCell,
    round: Option<nat>,
    checksumTweak: Option<nat>,
    sendTime: SendTime,
    raw: string)

  /** "LOVE" in hexadecimal: a HiPerConTracer probe. */
  const HIPERCONTRACER_MARK: string := "4c4f5645"
  /** The pattern bytes 0x20..0x23 of a Linux `ping` payload. */
  const LINUX_PING_MARK: string := "20212223"

  /** Python's `s[i:j]` for non-negative bounds: out-of-range bounds are clamped. */
  function PySlice<T>(s: seq<T>, i: nat, j: nat): (r: seq<T>)
    ensures |r| == if i < j && i < |s| then Min(j, |s|) - i else 0
    ensures forall k :: 0 <= k < |r| ==> r[k] == s[i + k]
  {
    var lo := Min(i, |s|);
    var hi := Min(j, |s|);
    if hi <= lo then [] else s[lo..hi]
  }

  function Min(a: nat, b: nat): nat {
    if a < b then a else b
  }

  /** `int(f"0x{digits}", 0)`: the digits' value; no digits is a `ValueError`. */
  function HexLiteral(digits: string): (r: Result<nat, PyError>)
    requires AllHex(digits)
    ensures r.Ok? <==> |digits| > 0
    ensures r.Err? ==> r.error == ValueError
    ensures r.Ok? ==> r.value == HexValue(digits) && r.value < Pow(16, |digits|)
  {
    HexValueBound(digits);
    if |digits| == 0 then Err(ValueError) else Ok(HexValue(digits))
  }

  /** `bytes(packet).hex()` */
  function RawHex(p: CapturedPacket): (raw: string)
    ensures AllLowerHex(raw) && |raw| == 2 * |p.bytes|
    ensures FromHex(raw) == Some(p.bytes)
  {
    FromHexOfDigits(p.bytes, false);
    HexDigits(p.bytes, false)
  }

  /**
    `raw_data[56:88]`: digits 56..87 of the raw text, which print packet
    bytes 28..43 (as many of them as the packet has).
   */
  function HeaderDigits(p: CapturedPacket): (h: string)
    ensures AllHex(h) && |h| <= 32 && |h| % 2 == 0
    ensures |h| > 16 <==> |p.bytes| > 36
    ensures h == HexDigits(p.bytes[Min(28, |p.bytes|)..Min(44, |p.bytes|)], false)
  {
    var n := |p.bytes|;
    HexDigitsSlice(p.bytes, Min(28, n), Min(44, n), false);
    PySlice(RawHex(p), 56, 88)
  }

  /** The fields the HiPerConTracer branch reads from the header digits. */
  datatype HiPerHeader = HiPerHeader(
    magic: nat, sendTtl: nat, round: nat, checksumTweak: nat, sendMillis: nat)

  /**
    The HiPerConTracer branch's field extraction: the magic number from
    digits 0..6 (digit 7 is skipped), the TTL from digits 8..9, the round
    from 10..11, the checksum tweak from 12..15, and the send time from the
    remaining digits read little-endian. With at most 16 digits some slice is
    empty and a `ValueError` is raised.
   */
  function ParseHiPerHeader(h: string): (r: Result<HiPerHeader, PyError>)
    requires AllHex(h) && |h| % 2 == 0 && |h| <= 32
    ensures r.Ok? <==> |h| > 16
    ensures r.Err? ==> r.error == ValueError
    ensures r.Ok? ==>
      && r.value.magic == HexValue(h[0..7]) && r.value.magic < 0x1000_0000
      && r.value.sendTtl == HexValue(h[8..10]) && r.value.sendTtl < 0x100
      && r.value.round == HexValue(h[10..12]) && r.value.round < 0x100
      && r.value.checksumTweak == HexValue(h[12..16]) && r.value.checksumTweak < 0x1_0000
      && FromHex(h[16..]).Some?
      && r.value.sendMillis == LittleEndianValue(FromHex(h[16..]).value)
  {
    var numbers :- HeaderNumbers(h);
    var stamp := PySlice(h, 16, |h|);
    HeaderSlices(h);
    StampConv(stamp);
    // `int(f"0x{little}", 0)` cannot fail on the 16 digits `little` holds.
    match LittleEndianConv(stamp)
    case Err(e) => Err(e)
    case Ok(little) => Ok(HiPerHeader(numbers.0, numbers.1, numbers.2, numbers.3, HexValue(little)))
  }

  /**
    The four fixed-width numbers in front of the send time, read in the
    order the branch reads them: `int(f"0x{h[a:b]}", 0)` for the slices
    0..7, 8..10, 10..12 and 12..16. The first empty slice raises
    `ValueError`, so all four are read exactly when there are more than 12
    digits.
   */
  function HeaderNumbers(h: string): (r: Result<(nat, nat, nat, nat), PyError>)
    requires AllHex(h)
    ensures r.Ok? <==> |h| > 12
    ensures r.Err? ==> r.error == ValueError
    ensures r.Ok? && |h| >= 16 ==>
      && r.value.0 == HexValue(h[0..7]) && r.value.0 < 0x1000_0000
      && r.value.1 == HexValue(h[8..10]) && r.value.1 < 0x100
      && r.value.2 == HexValue(h[10..12]) && r.value.2 < 0x100
      && r.value.3 == HexValue(h[12..16]) && r.value.3 < 0x1_0000
  {
    HeaderSlices(h);
    var magic :- HexLiteral(PySlice(h, 0, 7));
    var sendTtl :- HexLiteral(PySlice(h, 8, 10));
    var round :- HexLiteral(PySlice(h, 10, 12));
    var tweak :- HexLiteral(PySlice(h, 12, 16));
    Ok((magic, sendTtl, round, tweak))
  }

  /** The slices the HiPerConTracer branch takes, when the header reaches the send time. */
  lemma HeaderSlices(h: string)
    ensures |h| >= 16 ==>
      && PySlice(h, 0, 7) == h[0..7] && PySlice(h, 8, 10) == h[8..10]
      && PySlice(h, 10, 12) == h[10..12] && PySlice(h, 12, 16) == h[12..16]
      && PySlice(h, 16, |h|) == h[16..]
    ensures |h| <= 16 ==> PySlice(h, 16, |h|) == []
  {
  }

  /**
    The send-time digits (an even run of at most 16) convert exactly when
    there is at least one byte; otherwise `int('', 16)` raises `ValueError`.
   */
  lemma StampConv(stamp: string)
    requires AllHex(stamp) && |stamp| % 2 == 0 && |stamp| <= 16
    ensures LittleEndianConv(stamp).Ok? <==> |stamp| > 0
    ensures LittleEndianConv(stamp).Err? ==> LittleEndianConv(stamp).error == ValueError
    ensures LittleEndianConv(stamp).Ok? ==>
      && FromHex(stamp).Some?
      && HexValue(LittleEndianConv(stamp).value) == LittleEndianValue(FromHex(stamp).value)
  {
    DigitsOfFromHex(stamp);
    ShortValueFits(FromHex(stamp).value);
  }

  datatype Branch = HiPerConTracer | LinuxPing | Other

  /** The `match` statement's guards, tried in order. */
  function BranchOf(raw: string): (b: Branch)
    ensures b == HiPerConTracer <==> Contains(raw, HIPERCONTRACER_MARK)
    ensures b == LinuxPing <==> !Contains(raw, HIPERCONTRACER_MARK) && Contains(raw, LINUX_PING_MARK)
    ensures b == Other <==> !Contains(raw, HIPERCONTRACER_MARK) && !Contains(raw, LINUX_PING_MARK)
  {
    if ContainsExec(raw, HIPERCONTRACER_MARK) then HiPerConTracer
    else if ContainsExec(raw, LINUX_PING_MARK) then LinuxPing
    else Other
  }

  /**
    One iteration of `for packet in packets`: the row it appends (none
    without an IP layer) and the new value of `send_time`.
   */
  function Classify(p: CapturedPacket, sendTime: SendTime): (r: Result<(Option<Row>, SendTime), PyError>)
    ensures p.ip.None? ==> r == Ok((None, sendTime))
    ensures p.ip.Some? && r.Ok? ==>
      && r.value.0.Some?
      && r.value.0.value.src == p.ip.value.src
      && r.value.0.value.dst == p.ip.value.dst
      && r.value.0.value.arrival == p.time
      && r.value.0.value.raw == RawHex(p)
      && r.value.0.value.sendTime == r.value.1 != Unbound
    ensures r.Err? ==> r.error == ValueError || (r.error == NameError && sendTime == Unbound)
  {
    if p.ip.None? then Ok((None, sendTime))
    else
      var ip := p.ip.value;
      var raw := RawHex(p);
      match BranchOf(raw)
      case HiPerConTracer =>
        var header :- ParseHiPerHeader(HeaderDigits(p));
        var sent := SentAtMillis(header.sendMillis);
        Ok((Some(Row(ip.src, ip.dst, p.time, Some(header.magic), HeaderTtl(header.sendTtl),
                     Some(header.round), Some(header.checksumTweak), sent, raw)), sent))
      case LinuxPing =>
        if sendTime.Unbound? then Err(NameError)
        else
          Ok((Some(Row(ip.src, ip.dst, p.time, None, ArrivalTime(p.time), None, None, sendTime, raw)),
              sendTime))
      case Other =>
        Ok((Some(Row(ip.src, ip.dst, p.time, None, ArrivalTime(p.time), None, None, NoSendTime, raw)),
            NoSendTime))
  }

  /**
    A packet whose text contains the HiPerConTracer mark is classified as
    HiPerConTracer even when it also contains the Linux ping mark.
   */
  lemma BranchPriority(p: CapturedPacket, sendTime: SendTime)
    requires p.ip.Some?
    requires Contains(RawHex(p), HIPERCONTRACER_MARK)
    ensures BranchOf(RawHex(p)) == HiPerConTracer
    ensures Classify(p, sendTime).Ok? ==>
      && Classify(p, sendTime).value.0.value.magic.Some?
      && Classify(p, sendTime).value.0.value.ttl.HeaderTtl?
      && Classify(p, sendTime).value.1.SentAtMillis?
  {
  }

  /**
    In the HiPerConTracer branch the row carries the header fields and the
    scraped send time; the branch succeeds exactly when the packet has more
    than 36 bytes, so that the header reaches the send time.
   */
  lemma HiPerConTracerFields(p: CapturedPacket, sendTime: SendTime)
    requires p.ip.Some? && BranchOf(RawHex(p)) == HiPerConTracer
    ensures Classify(p, sendTime).Ok? <==> |p.bytes| > 36
    ensures Classify(p, sendTime).Err? ==> Classify(p, sendTime).error == ValueError
    ensures Classify(p, sendTime).Ok? ==>
      var header := ParseHiPerHeader(HeaderDigits(p)).value;
      var row := Classify(p, sendTime).value.0.value;
      && row.magic == Some(header.magic)
      && row.ttl == HeaderTtl(header.sendTtl)
      && row.round == Some(header.round)
      && row.checksumTweak == Some(header.checksumTweak)
      && row.sendTime == SentAtMillis(header.sendMillis)
      && Classify(p, sendTime).value.1 == row.sendTime
  {
  }

  /**
    Outside HiPerConTracer the header columns are None and the TTL column
    holds the arrival time; the Linux ping branch keeps `send_time` from the
    previous packet (a `NameError` if there was none) while the other branch
    resets it to None.
   */
  lemma OtherBranchesFields(p: CapturedPacket, sendTime: SendTime)
    requires p.ip.Some? && BranchOf(RawHex(p)) != HiPerConTracer
    ensures BranchOf(RawHex(p)) == LinuxPing && sendTime.Unbound? ==>
      Classify(p, sendTime) == Err(NameError)
    ensures BranchOf(RawHex(p)) == LinuxPing && !sendTime.Unbound? ==>
      Classify(p, sendTime).Ok? && Classify(p, sendTime).value.1 == sendTime
    ensures BranchOf(RawHex(p)) == Other ==>
      Classify(p, sendTime).Ok? && Classify(p, sendTime).value.1 == NoSendTime
    ensures Classify(p, sendTime).Ok? ==>
      var row := Classify(p, sendTime).value.0.value;
      && row.magic.None? && row.round.None? && row.checksumTweak.None?
      && row.ttl == ArrivalTime(p.time)
  {
  }

  /** The packets that have an IP layer, in input order. */
  function IpPackets(ps: seq<CapturedPacket>): (r: seq<CapturedPacket>)
    ensures |r| <= |ps|
    ensures forall k :: 0 <= k < |r| ==> r[k].ip.Some?
  {
    if |ps| == 0 then []
    else (if ps[0].ip.Some? then [ps[0]] else []) + IpPackets(ps[1..])
  }

  /**
    The loop over one capture's packets, threading `send_time` through. The
    only errors are a `ValueError` from a short HiPerConTracer header and a
    `NameError` when `send_time` was never assigned before this capture;
    after the loop `send_time` is still unassigned exactly when it was
    unassigned before and the capture holds no IP packet.
   */
  function ParseCapture(ps: seq<CapturedPacket>, sendTime: SendTime): (r: Result<(seq<Row>, SendTime), PyError>)
    ensures r.Err? ==> r.error == ValueError || (r.error == NameError && sendTime == Unbound)
    ensures r.Ok? ==> (r.value.1 == Unbound <==> sendTime == Unbound && IpPackets(ps) == [])
    decreases |ps|
  {
    if |ps| == 0 then Ok(([], sendTime))
    else
      var first :- Classify(ps[0], sendTime);
      var rest :- ParseCapture(ps[1..], first.1);
      Ok(((if first.0.Some? then [first.0.value] else []) + rest.0, rest.1))
  }

  /** The row carries the packet's addresses, arrival time and raw hexadecimal text. */
  predicate RowDescribes(row: Row, p: CapturedPacket) {
    && p.ip.Some?
    && row.src == p.ip.value.src
    && row.dst == p.ip.value.dst
    && row.arrival == p.time
    && row.raw == RawHex(p)
  }

  /** A successful loop is the first packet's row, if any, followed by the rows of the rest. */
  lemma ParseCaptureFirst(ps: seq<CapturedPacket>, sendTime: SendTime) returns (head: seq<Row>, next: SendTime)
    requires |ps| > 0 && ParseCapture(ps, sendTime).Ok?
    ensures Classify(ps[0], sendTime).Ok? && next == Classify(ps[0], sendTime).value.1
    ensures ParseCapture(ps[1..], next).Ok?
    ensures ParseCapture(ps, sendTime).value.0 == head + ParseCapture(ps[1..], next).value.0
    ensures ps[0].ip.Some? ==> |head| == 1 && RowDescribes(head[0], ps[0])
    ensures ps[0].ip.None? ==> head == []
  {
    var first := Classify(ps[0], sendTime).value;
    head := if first.0.Some? then [first.0.value] else [];
    next := first.1;
  }

  /**
    Packets without an IP layer produce no row, and every IP packet produces
    exactly one, in input order.
   */
  lemma {:induction false} RowsFollowIpPackets(ps: seq<CapturedPacket>, sendTime: SendTime)
    requires ParseCapture(ps, sendTime).Ok?
    ensures var rows := ParseCapture(ps, sendTime).value.0;
      var ips := IpPackets(ps);
      && |rows| == |ips|
      && forall k :: 0 <= k < |rows| ==> RowDescribes(rows[k], ips[k])
    decreases |ps|
  {
    if |ps| > 0 {
      var head, next := ParseCaptureFirst(ps, sendTime);
      RowsFollowIpPackets(ps[1..], next);
      var restRows := ParseCapture(ps[1..], next).value.0;
      var restIps := IpPackets(ps[1..]);
      var headIps: seq<CapturedPacket> := if ps[0].ip.Some? then [ps[0]] else [];
      assert IpPackets(ps) == headIps + restIps;
      ConcatDescribes(head, headIps, restRows, restIps);
    }
  }

  /** Rows that describe their packets one for one still do after concatenation. */
  lemma ConcatDescribes(rows1: seq<Row>, ps1: seq<CapturedPacket>, rows2: seq<Row>, ps2: seq<CapturedPacket>)
    requires |rows1| == |ps1| && forall k :: 0 <= k < |rows1| ==> RowDescribes(rows1[k], ps1[k])
    requires |rows2| == |ps2| && forall k :: 0 <= k < |rows2| ==> RowDescribes(rows2[k], ps2[k])
    ensures var rows, ps := rows1 + rows2, ps1 + ps2;
      |rows| == |ps| && forall k :: 0 <= k < |rows| ==> RowDescribes(rows[k], ps[k])
  {
    var rows, ps := rows1 + rows2, ps1 + ps2;
    forall k | 0 <= k < |rows|
      ensures RowDescribes(rows[k], ps[k])
    {
      if k >= |rows1| {
        assert rows[k] == rows2[k - |rows1|];
        assert ps[k] == ps2[k - |rows1|];
      }
    }
  }

  /**
    A packet the loop body gets through whatever `send_time` holds: no IP
    layer, not HiPerConTracer, or a header long enough to reach the send time.
   */
  predicate Classifiable(p: CapturedPacket) {
    p.ip.None? || BranchOf(RawHex(p)) != HiPerConTracer || |p.bytes| > 36
  }

  /** The capture's first IP packet takes the Linux ping branch. */
  predicate PingFirst(ps: seq<CapturedPacket>) {
    var ips := IpPackets(ps);
    |ips| > 0 && BranchOf(RawHex(ips[0])) == LinuxPing
  }

  /**
    One IP packet is classified unless its header is short or it is a Linux
    ping with `send_time` never assigned; those two fail with `ValueError`
    and `NameError` respectively.
   */
  lemma ClassifySucceeds(p: CapturedPacket, sendTime: SendTime)
    requires p.ip.Some?
    ensures Classify(p, sendTime).Ok? <==>
      Classifiable(p) && !(BranchOf(RawHex(p)) == LinuxPing && sendTime == Unbound)
    ensures Classify(p, sendTime).Err? ==>
      (Classify(p, sendTime).error == NameError <==> BranchOf(RawHex(p)) == LinuxPing && sendTime == Unbound)
  {
    if BranchOf(RawHex(p)) == HiPerConTracer {
      HiPerConTracerFields(p, sendTime);
    } else {
      OtherBranchesFields(p, sendTime);
    }
  }

  /**
    The loop over a capture succeeds exactly when every packet is
    classifiable and, if `send_time` was never assigned, the first IP packet
    is not a Linux ping.
   */
  lemma {:induction false} ParseCaptureSucceeds(ps: seq<CapturedPacket>, sendTime: SendTime)
    ensures ParseCapture(ps, sendTime).Ok? <==>
      (forall k :: 0 <= k < |ps| ==> Classifiable(ps[k])) && !(sendTime == Unbound && PingFirst(ps))
    decreases |ps|
  {
    if |ps| > 0 {
      var p := ps[0];
      ClassifiableSplit(ps);
      PingFirstSplit(ps);
      ParseCaptureUnfold(ps, sendTime);
      if p.ip.None? {
        ParseCaptureSucceeds(ps[1..], sendTime);
      } else {
        ClassifySucceeds(p, sendTime);
        if Classify(p, sendTime).Ok? {
          ParseCaptureSucceeds(ps[1..], Classify(p, sendTime).value.1);
        }
      }
    }
  }

  /**
    A failed loop raised `NameError` exactly when `send_time` was never
    assigned and the first IP packet is a Linux ping; every other failure is
    a short HiPerConTracer header's `ValueError`.
   */
  lemma {:induction false} ParseCaptureFailure(ps: seq<CapturedPacket>, sendTime: SendTime)
    ensures ParseCapture(ps, sendTime).Err? ==>
      (ParseCapture(ps, sendTime).error == NameError <==> sendTime == Unbound && PingFirst(ps))
    decreases |ps|
  {
    if |ps| > 0 {
      var p := ps[0];
      PingFirstSplit(ps);
      ParseCaptureUnfold(ps, sendTime);
      if p.ip.None? {
        ParseCaptureFailure(ps[1..], sendTime);
      } else {
        ClassifySucceeds(p, sendTime);
        if Classify(p, sendTime).Ok? {
          ParseCaptureFailure(ps[1..], Classify(p, sendTime).value.1);
        }
      }
    }
  }

  lemma ClassifiableSplit(ps: seq<CapturedPacket>)
    requires |ps| > 0
    ensures (forall k :: 0 <= k < |ps| ==> Classifiable(ps[k])) <==>
      Classifiable(ps[0]) && forall k :: 0 <= k < |ps[1..]| ==> Classifiable(ps[1..][k])
  {
    assert forall k :: 0 <= k < |ps[1..]| ==> ps[1..][k] == ps[k + 1];
  }

  lemma PingFirstSplit(ps: seq<CapturedPacket>)
    requires |ps| > 0
    ensures PingFirst(ps) <==>
      if ps[0].ip.Some? then BranchOf(RawHex(ps[0])) == LinuxPing else PingFirst(ps[1..])
  {
    assert IpPackets(ps) == (if ps[0].ip.Some? then [ps[0]] else []) + IpPackets(ps[1..]);
  }

  /** One step of the loop: the first packet's error, else the rest's, continuing from its `send_time`. */
  lemma ParseCaptureUnfold(ps: seq<CapturedPacket>, sendTime: SendTime)
    requires |ps| > 0
    ensures Classify(ps[0], sendTime).Err? ==>
      ParseCapture(ps, sendTime) == Err(Classify(ps[0], sendTime).error)
    ensures Classify(ps[0], sendTime).Ok? ==>
      var rest := ParseCapture(ps[1..], Classify(ps[0], sendTime).value.1);
      && (ParseCapture(ps, sendTime).Ok? <==> rest.Ok?)
      && (rest.Err? ==> ParseCapture(ps, sendTime) == Err(rest.error))
  {
  }
}

=== FILE: py_errors.dfy ===
/** The Python exceptions the modelled scripts can raise on their inputs. */
module PyErrors {
  datatype PyError =
    | ValueError     // a malformed hexadecimal or numeric string
    | OverflowError  // `int.to_bytes` given a value that does not fit
    | NameError      // a variable read before any assignment
    | UnicodeDecodeError  // bytes that are not valid UTF-8
}

=== FILE: report.dfy ===
/**
  The executable pass of `main` and the report it prints: the finding blocks
  in capture order, then both address sets in ascending order, and the exit
  status.
 */
module Report {
  import opened Bytes
  import opened SeqSearch
  import opened Frames
  import opened Detector
  import opened AddressOrder

  /** The base an integer is printed in; `std::hex` stays set once used. */
  datatype Radix = Decimal | Hexadecimal

  datatype Number = Number(radix: Radix, value: nat)

  /** The labelled fields of one printed finding, in the order they are printed. */
  datatype Block = Block(
    packetType: Number,
    src: Addr,
    dst: Addr,
    ipId: Number,
    checksum: Number,
    ttl: Number,
    payloadText: seq<byte>)

  datatype Listing = Listing(blocks: seq<Block>, sources: seq<Addr>, destinations: seq<Addr>)

  /** The line written to standard error when the capture file cannot be opened. */
  const OPEN_ERROR: string := "Error opening the pcap file"

  /**
    An open failure writes one line to standard error and nothing to
    standard output; a completed run prints the listing to standard output.
   */
  datatype RunResult = OpenFailed(stderrLine: string) | Completed(listing: Listing)

  /** The process exit status of a run. */
  function ExitStatus(r: RunResult): (status: int)
    ensures status == 1 <==> r.OpenFailed?
    ensures status == 0 <==> r.Completed?
  {
    match r
    case OpenFailed(_) => 1
    case Completed(_) => 0
  }

  /** The block printed for `f`; `hexMode` says whether `std::hex` was already set. */
  function RenderBlock(f: Finding, hexMode: bool): Block {
    Block(Number(if hexMode then Hexadecimal else Decimal, f.icmpType as int),
          f.src, f.dst,
          Number(Hexadecimal, f.ipId as int),
          Number(Hexadecimal, f.checksum as int),
          Number(Hexadecimal, f.ttl as int),
          f.payload)
  }

  /**
    The blocks printed for `fs`. Only the very first type of the run is
    printed in decimal; the ID, checksum and TTL are always hexadecimal.
   */
  function RenderBlocks(fs: seq<Finding>, hexMode: bool): (bs: seq<Block>)
    ensures |bs| == |fs|
    ensures forall k :: 0 <= k < |fs| ==>
      && bs[k].packetType == Number(if k == 0 && !hexMode then Decimal else Hexadecimal, fs[k].icmpType as int)
      && bs[k].src == fs[k].src && bs[k].dst == fs[k].dst
      && bs[k].ipId == Number(Hexadecimal, fs[k].ipId as int)
      && bs[k].checksum == Number(Hexadecimal, fs[k].checksum as int)
      && bs[k].ttl == Number(Hexadecimal, fs[k].ttl as int)
      && bs[k].payloadText == fs[k].payload
    decreases |fs|
  {
    if |fs| == 0 then [] else [RenderBlock(fs[0], hexMode)] + RenderBlocks(fs[1..], true)
  }

  /**
    `getFullPayloadAsVector`: copies the layer's payload byte by byte into a
    fresh vector.
   */
  method FullPayload(layerPayload: seq<byte>) returns (v: seq<byte>)
    ensures v == layerPayload
  {
    v := [];
    var i := 0;
    while i < |layerPayload|
      invariant i <= |layerPayload|
      invariant v == layerPayload[..i]
    {
      v := v + [layerPayload[i]];
      i := i + 1;
    }
  }

  /** The capture loop of `main`, frame by frame in capture order. */
  method Detect(frames: seq<Frame>) returns (st: ScanState)
    ensures st == Scan(frames)
  {
    st := Initial;
    var i := 0;
    while i < |frames|
      invariant i <= |frames|
      invariant st == Scan(frames[..i])
    {
      var f := frames[i];
      assert frames[..i + 1][..i] == frames[..i];
      if IsEchoRequest(f) && Unseen(st, f.ipv4.value.src) {
        var payload := FullPayload(f.firstLayerPayload);
        if Find(payload, MARKER).Some? {
          var ip := f.ipv4.value;
          st := ScanState(st.srcAddresses + {ip.src}, st.destAddresses + {ip.dst},
                          st.findings + [FindingOf(f)]);
        }
      }
      i := i + 1;
    }
    assert frames[..i] == frames;
  }

  /**
    The whole program: when the capture cannot be opened nothing is read,
    the error line goes to standard error and the status is 1; otherwise
    every frame is scanned, the findings and both sets are printed, and the
    status is 0.
   */
  method Run(readerOpened: bool, frames: seq<Frame>) returns (result: RunResult, status: int)
    ensures !readerOpened ==> result == OpenFailed(OPEN_ERROR) && status == 1
    ensures readerOpened ==> status == 0 && result.Completed?
    ensures readerOpened ==> result.listing.blocks == RenderBlocks(Scan(frames).findings, false)
    ensures readerOpened ==>
      StrictlyAscending(result.listing.sources) && Elems(result.listing.sources) == Scan(frames).srcAddresses
    ensures readerOpened ==>
      StrictlyAscending(result.listing.destinations) && Elems(result.listing.destinations) == Scan(frames).destAddresses
  {
    if !readerOpened {
      result := OpenFailed(OPEN_ERROR);
    } else {
      var st := Detect(frames);
      var sources := Ascending(st.srcAddresses);
      var destinations := Ascending(st.destAddresses);
      result := Completed(Listing(RenderBlocks(st.findings, false), sources, destinations));
    }
    status := ExitStatus(result);
  }
}

=== FILE: scenarios.dfy ===
/**
  Concrete captures that exercise the detector end to end: a report, an
  ignored Echo Reply, a repeated source, and a marker miss followed by a hit.
 */
module Scenarios {
  import opened Outcomes
  import opened Bytes
  import opened SeqSearch
  import opened Frames
  import opened Detector

  const HOST_1: Addr := 0x0A00_0001  // 10.0.0.1
  const HOST_2: Addr := 0x0A00_0002  // 10.0.0.2
  const HOST_3: Addr := 0x0A00_0003  // 10.0.0.3

  /** "hello LOVE world" */
  const MARKED: seq<byte> :=
    [0x68, 0x65, 0x6C, 0x6C, 0x6F, 0x20, 0x4C, 0x4F, 0x56, 0x45, 0x20, 0x77, 0x6F, 0x72, 0x6C, 0x64]

  /** "hello world" */
  const UNMARKED: seq<byte> := [0x68, 0x65, 0x6C, 0x6C, 0x6F, 0x20, 0x77, 0x6F, 0x72, 0x6C, 0x64]

  function Echo(icmpType: byte, src: Addr, dst: Addr, payload: seq<byte>): Frame {
    DecodedFrame(Some(Ipv4Header(src, dst, 0x3412, 64)), Some(IcmpHeader(icmpType, 0xBEEF)), payload)
  }

  lemma MarkedHasMarker()
    ensures Contains(MARKED, MARKER)
  {
    assert OccursAt(MARKED, MARKER, 6);
  }

  lemma UnmarkedLacksMarker()
    ensures !Contains(UNMARKED, MARKER)
  {
    assert forall k :: 0 <= k < |UNMARKED| ==> UNMARKED[k] != MARKER[0];
    forall i: nat
      ensures !OccursAt(UNMARKED, MARKER, i)
    {
      if i + |MARKER| <= |UNMARKED| {
        assert UNMARKED[i..i + |MARKER|][0] == UNMARKED[i];
      }
    }
  }

  /** A one-frame capture is one step from the initial state. */
  lemma ScanOne(f: Frame)
    ensures Scan([f]) == Step(Initial, f)
  {
    assert [f][..0] == [];
  }

  /** A two-frame capture is two steps from the initial state. */
  lemma ScanTwo(f: Frame, g: Frame)
    ensures Scan([f, g]) == Step(Step(Initial, f), g)
  {
    assert [f, g][..1] == [f];
    ScanOne(f);
  }

  /** The ID is printed byte-swapped: the raw word 0x3412 reads as 0x1234. */
  lemma EchoFinding(icmpType: byte, src: Addr, dst: Addr, payload: seq<byte>)
    ensures FindingOf(Echo(icmpType, src, dst, payload)) == Finding(icmpType, src, dst, 0x1234, 0xBEEF, 64, payload)
  {
    assert NetToHost16(0x3412) == 0x1234;
  }

  /** One marked Echo Request gives one finding and records both addresses. */
  lemma ScenarioSingleRequest()
    ensures var st := Scan([Echo(8, HOST_1, HOST_2, MARKED)]);
      && st.findings == [Finding(8, HOST_1, HOST_2, 0x1234, 0xBEEF, 64, MARKED)]
      && st.srcAddresses == {HOST_1} && st.destAddresses == {HOST_2}
  {
    var f := Echo(8, HOST_1, HOST_2, MARKED);
    ScanOne(f);
    MarkedHasMarker();
    assert Reports(Initial, f);
    EchoFinding(8, HOST_1, HOST_2, MARKED);
  }

  /** An Echo Reply is never reported, marker or not. */
  lemma ScenarioReplyIgnored()
    ensures Scan([Echo(0, HOST_1, HOST_2, MARKED)]) == Initial
  {
    var frames := [Echo(0, HOST_1, HOST_2, MARKED)];
    assert frames[..0] == [];
  }

  /** A second marked request from the same source is not reported. */
  lemma ScenarioRepeatedSource()
    ensures var st := Scan([Echo(8, HOST_1, HOST_2, MARKED), Echo(8, HOST_1, HOST_3, MARKED)]);
      && |st.findings| == 1 && st.findings[0].dst == HOST_2
      && st.srcAddresses == {HOST_1} && st.destAddresses == {HOST_2}
  {
    var frames := [Echo(8, HOST_1, HOST_2, MARKED), Echo(8, HOST_1, HOST_3, MARKED)];
    assert frames[..1] == [frames[0]];
    assert frames[..1][..0] == [];
    MarkedHasMarker();
    assert Reports(Initial, frames[0]);
    var s1 := Step(Initial, frames[0]);
    assert Scan(frames[..1]) == s1;
    assert s1.srcAddresses == {HOST_1};
    assert !Reports(s1, frames[1]);
    assert Scan(frames) == Step(s1, frames[1]) == s1;
  }

  /** A request without the marker records nothing, so the source's next marked request is reported. */
  lemma ScenarioMissThenHit()
    ensures var st := Scan([Echo(8, HOST_1, HOST_2, UNMARKED), Echo(8, HOST_1, HOST_3, MARKED)]);
      && |st.findings| == 1 && st.findings[0].dst == HOST_3
      && st.srcAddresses == {HOST_1} && st.destAddresses == {HOST_3}
  {
    var frames := [Echo(8, HOST_1, HOST_2, UNMARKED), Echo(8, HOST_1, HOST_3, MARKED)];
    assert frames[..1] == [frames[0]];
    assert frames[..1][..0] == [];
    UnmarkedLacksMarker();
    MarkedHasMarker();
    assert !Reports(Initial, frames[0]);
    assert Scan(frames[..1]) == Initial;
    assert Reports(Initial, frames[1]);
    assert Scan(frames) == Step(Initial, frames[1]);
  }
}

=== FILE: seq_search.dfy ===
/**
  Contiguous sub-sequence search: `std::string::find` in the detector and
  Python's `in` on strings in the packet parser.
 */
module SeqSearch {
  import opened Outcomes

  /** `needle` occurs in `hay` starting at position `i`. */
  predicate OccursAt<T(==)>(hay: seq<T>, needle: seq<T>, i: nat) {
    i + |needle| <= |hay| && hay[i..i + |needle|] == needle
  }

  /** `needle` occurs somewhere in `hay` as a contiguous block. */
  ghost predicate Contains<T>(hay: seq<T>, needle: seq<T>) {
    exists i: nat :: OccursAt(hay, needle, i)
  }

  /** The first occurrence of `needle` in `hay` at or after `start`. */
  function FindFrom<T(==)>(hay: seq<T>, needle: seq<T>, start: nat): (r: Option<nat>)
    ensures r.Some? ==> start <= r.value && OccursAt(hay, needle, r.value)
    ensures r.Some? ==> forall j: nat :: start <= j < r.value ==> !OccursAt(hay, needle, j)
    ensures r.None? ==> forall j: nat :: start <= j ==> !OccursAt(hay, needle, j)
    decreases |hay| - start
  {
    if start + |needle| > |hay| then None
    else if hay[start..start + |needle|] == needle then Some(start)
    else FindFrom(hay, needle, start + 1)
  }

  /**
    The position of the first occurrence of `needle` in `hay`, or None
    (the `npos` of `std::string::find`).
   */
  function Find<T(==)>(hay: seq<T>, needle: seq<T>): (r: Option<nat>)
    ensures r.Some? <==> Contains(hay, needle)
    ensures r.Some? ==> OccursAt(hay, needle, r.value)
    ensures r.Some? ==> forall j: nat :: j < r.value ==> !OccursAt(hay, needle, j)
  {
    FindFrom(hay, needle, 0)
  }

  /** Executable membership test: Python's `needle in hay`. */
  function ContainsExec<T(==)>(hay: seq<T>, needle: seq<T>): (b: bool)
    ensures b <==> Contains(hay, needle)
  {
    Find(hay, needle).Some?
  }
}
